=== FILE: README.md ===
# Game-night statistics core, modelled in Dafny

This project models the statistics core of a game-night dashboard, in which players meet at
events, play board and video games, and each game's result records who won, who lost and
who finished where. The modelled parts are:

- **Player page aggregation** (`aggregates.ts`). This covers the per-game win-rate rows, the rank
  histogram, the cumulative win-rate series, the best, most-played and most-points game picks,
  the recent-form series of net points per event, and `aggregatePlayerStatsForPage`, which puts
  them together.
- **Leaderboard filtering** (`filtering.ts`). The visible, sorted board, and the board scoped to a
  game type and a year.
- **Leaderboard drop-down options** (`options.ts`). One option per available year and game type
  with results, each with its leader, a championship flag for past years, and a fallback option.
- **Selection parsing** (`helpers.ts`). Reading `"board-2025"` or `"video-all"` back into a type and
  a year.
- **Recent-form display** (the module-level helpers of `LeaderboardTable.tsx`). Trimming trailing
  missed events, the text and colour of a form cell, and the common form width of the table.

The model is written over immutable datatypes and pure functions. There is one module per
concern:

| module | contents |
|---|---|
| `Wrappers` | `Option` |
| `Seqs` | JavaScript `filter`, `find`, `slice`, `reverse` on sequences |
| `Decimal` | decimal text of naturals and its reading |
| `Domain` | the records, derived rows and constants |
| `GameWinRates` | per-game rows |
| `RankCounts` | rank histogram |
| `WinRateSeries` | cumulative win-rate series |
| `GamePicks` | best / most-played / most-points picks |
| `RecentForm` | recent-form series |
| `PlayerPage` | page aggregation |
| `Filtering` | leaderboards |
| `Selection` | selection parsing |
| `LeaderboardOptions` | drop-down options |
| `FormDisplay` | form column |

Each file is named after its module in lower case (`game_win_rates.dfy` and so on).

Collaborators whose code is not part of this model are passed in as values, and only what the
modelled code relies on is assumed of them:

- `sortLeaderboard` and `computePlayerData` are the two fields of the datatype
  `Filtering.Services`. `Filtering.Collaborators` is its subset type, restricted by `SortPermutes`. That
  constraint says only that the sort reorders its input: same multiset, no rows added or dropped.
- `sortEventsByDate(events, true)` is the `newestFirst` parameter.
- `calculateWinRatePercent` is the `percent` parameter.
- `getAvailableYears(events)` and `new Date().getFullYear()` are the `availableYears` and
  `currentYear` parameters.
- An event's calendar date is represented by its year.
- `filterResultsByYear` is not part of the source files modelled here. Its only description is
  the note that a null year means all years. That a null year keeps every result is taken from
  that note. That a year keeps exactly the results whose event is found and falls in that year
  is an assumption: it is chosen to be the test `hasResults` applies in `options.ts` (lines
  30-36). `LeaderboardOptions.HasResultsIffScoped` depends on this assumption.
- `isPlayerWinner` (from `common/utils/gameHelpers`) is not part of the source files modelled
  here. It is modelled as `Domain.IsPlayerWinner`, which holds when the entry's `isWinner` is
  `true` and fails when it is `false` or null. This is an assumption about its body.
- In `buildRecentFormSeries` the same helper is applied to an event's result line. The model's
  result lines carry `isWinner` and `isLoser` as plain booleans, so `RecentForm.NetPoints` reads
  `isWinner` directly, under the same assumption. `isLoser` is read directly in the source too.

## Model

| member | source | states |
|---|---|---|
| GameWinRates.BuildGameWinRates | src/features/players/utils/calculations/aggregates.ts:25-51 | no rows exactly when there are no entries; one row per distinct game id of the entries (row ids are distinct and are exactly the entries' game ids); each row's games and wins are that game's entry and win counts, its win rate times games is its wins and lies in [0,1], its game is the looked-up game, and its points are the game's points times its wins (0 when the game does not resolve); the games of all rows add up to the number of entries |
| GameWinRates.WinRate | src/features/players/utils/calculations/aggregates.ts:47 | the rate is 0 for no games, otherwise rate × games = wins, and it lies in [0,1] when wins do not exceed games |
| GameWinRates.TallyEntriesInvariant | src/features/players/utils/calculations/aggregates.ts:26-37 | after the `forEach` over all entries the accumulator holds one tally per game seen, with distinct ids, each game's exact entry and win counts and a positive game count, and the tallies' games sum to the number of entries |
| GameWinRates.RecordKeepsInvariant | src/features/players/utils/calculations/aggregates.ts:28-37 | one step of the `forEach` (create the counter if missing, bump games, bump wins on a win) keeps that invariant for the entries seen so far plus the new one |
| GameWinRates.WinsAtMostGames | src/features/players/utils/calculations/aggregates.ts:33-36 | a game's win count never exceeds its game count, since a win is only counted on an entry that is also counted as a game |
| GameWinRates.RowsOfTallies | src/features/players/utils/calculations/aggregates.ts:39-50 | mapping a tally set that satisfies the invariant to rows gives distinct ids, exactly the entries' game ids, rows that agree with the entries, and a games total equal to the entry count |
| RankCounts.CountedRank | src/features/players/utils/calculations/aggregates.ts:60-61 | an entry is counted exactly when its rank is present and positive, and then under that rank; a null rank, read as -1, and every rank of 0 or below are skipped |
| RankCounts.BuildRankCounts | src/features/players/utils/calculations/aggregates.ts:56-69 | bars in strictly ascending rank order, each with a positive rank and a count equal to the number of entries finishing at that rank; every positive rank some entry has gets a bar; the counts add up to the number of positively ranked entries (null and non-positive ranks are ignored) |
| RankCounts.HistogramInvariant | src/features/players/utils/calculations/aggregates.ts:57-64 | after counting all entries, every rank's recorded count is its number of occurrences and the histogram stays ordered with positive ranks and counts |
| RankCounts.InsertFacts | src/features/players/utils/calculations/aggregates.ts:61-63 | counting one more finish at a positive rank adds one to exactly that rank's count and keeps the histogram ordered |
| WinRateSeries.FullSeries | src/features/players/utils/calculations/aggregates.ts:75-89 | one point per entry; point i has index i+1 and i+1 games, its wins are the wins among the first i+1 entries, and its rate is the percentage of those two counts |
| WinRateSeries.FullSeriesSteps | src/features/players/utils/calculations/aggregates.ts:79-89 | running wins never exceed running games, and from one point to the next the wins rise by one exactly when the next entry is a win |
| WinRateSeries.BuildWinRateSeries | src/features/players/utils/calculations/aggregates.ts:74-92 | `slice(-recentWindow)`: a positive window keeps the last min(n, window) points, a zero window keeps the whole series, a negative window drops the first min(n, -window) points; every kept point has index equal to games and wins at most games, indices are consecutive, and a non-empty result ends at the last entry |
| GamePicks.FirstBest | src/features/players/utils/calculations/aggregates.ts:98 | sorting the qualifying rows stably with a two-key comparator and taking the first gives a qualifying row that no qualifying row sorts before and that sorts strictly before every qualifying row preceding it; none exactly when no row qualifies |
| GamePicks.FindBestGame | src/features/players/utils/calculations/aggregates.ts:97-99 | none exactly when no row has at least the minimum number of games; otherwise a row of the input with at least that many games, with the highest win rate among such rows and the most games among those tied on win rate, and the earliest such row |
| GamePicks.FindMostPlayed | src/features/players/utils/calculations/aggregates.ts:104-106 | none exactly for no rows; otherwise a row of the input with the most games, the highest win rate among those, and the earliest such row |
| GamePicks.FindMostPoints | src/features/players/utils/calculations/aggregates.ts:111-113 | none exactly for no rows; otherwise a row of the input with the most points, the highest win rate among those, and the earliest such row |
| RecentForm.NetPoints | src/features/players/utils/calculations/aggregates.ts:143-148 | a win earns the game's points, a loss costs them, a line flagged both winner and loser nets zero, and neither flag nets zero |
| RecentForm.FormLoop | src/features/players/utils/calculations/aggregates.ts:129-151 | the loop over results yields null exactly when the player is not yet marked attended and no result counts (same event, resolvable game, player has a line); otherwise the running total plus the sum of every counting result's net points |
| RecentForm.EventForm | src/features/players/utils/calculations/aggregates.ts:128-152 | an event's form value is null exactly when no result of that event with a resolvable game has a line for the player, and otherwise the sum of the player's net points over those results |
| RecentForm.NumberOldestFirst | src/features/players/utils/calculations/aggregates.ts:154-159 | reversing the newest-first form and numbering from 1 gives one point per event, the i-th (from 0) having x = i + 1 and the value of the event i places from the oldest |
| RecentForm.PresentPoints | src/features/players/utils/calculations/aggregates.ts:155-161 | reversing to oldest first, numbering from 1 and dropping nulls keeps only non-null points, each at its 1-based position with the value of the matching event, in increasing position order, and keeps every non-null event |
| RecentForm.BuildRecentFormSeries | src/features/players/utils/calculations/aggregates.ts:118-162 | over the first `recentWindow` events newest first: no more points than recent events (nor than a non-negative window), every point non-null with a position in 1..n whose value is that event's form, strictly increasing positions, and every recent event the player took part in appears |
| PlayerPage.LastGames | src/features/players/utils/calculations/aggregates.ts:188-191 | the last-games chart has one point per series point, numbered from 1, each with the series point's win rate |
| PlayerPage.AggregatePlayerStatsForPage | src/features/players/utils/calculations/aggregates.ts:167-202 | rows account for every entry once and agree with the entries; the best game is absent exactly when no row reaches the minimum (3 by default) and otherwise is a row reaching it; most-played and most-points are absent exactly when there are no entries and are rows otherwise; the rank counts add up to the ranked entries; the last-games chart is numbered from 1 and by default holds min(n, 20) points; the recent form by default holds at most 5 points |
| Filtering.Qualifying | src/features/leaderboard/utils/calculations/filtering.ts:15-17 | every kept player has at least the minimum number of games (1) and is shown on the leaderboard, and every such player of the input is kept as often as it occurs there |
| Filtering.QualifyingIdempotent | src/features/leaderboard/utils/calculations/filtering.ts:15-17 | filtering an already filtered list changes nothing |
| Filtering.GetLeaderboard | src/features/leaderboard/utils/calculations/filtering.ts:14-19 | after sorting, every row is a shown player with enough games, each such input player appears exactly as often as in the input, and no one else appears |
| Filtering.LeaderboardFilterFixed | src/features/leaderboard/utils/calculations/filtering.ts:14-19 | a leaderboard passes its own filter unchanged |
| Filtering.FilterResultsByYear | src/features/leaderboard/utils/calculations/filtering.ts:40 | a null year keeps the results unchanged; a year keeps each result whose event is found and falls in that year, as often as in the input, and nothing else |
| Filtering.FilterByGameType | src/features/leaderboard/utils/calculations/filtering.ts:43-46 | keeps each result whose game resolves and has the requested type, as often as in the input, and nothing else |
| Filtering.ScopedResults | src/features/leaderboard/utils/calculations/filtering.ts:39-46 | the year filter then the type filter keep exactly the in-scope results, each as often as in the input |
| Filtering.YearAndTypeFiltersCommute | src/features/leaderboard/utils/calculations/filtering.ts:39-46 | filtering by type first and year second gives the same sequence |
| Filtering.GetLeaderboardByTypeAndYear | src/features/leaderboard/utils/calculations/filtering.ts:31-51 | every row is a shown player, and each shown player of the aggregation over the in-scope results only appears exactly as often as there |
| Filtering.FindEvent | src/features/leaderboard/utils/calculations/options.ts:31 | a found event is the first event in the list with the requested id (no earlier event has it); none exactly when no event has that id |
| LeaderboardOptions.HasResults | src/features/leaderboard/utils/calculations/options.ts:29-42 | true exactly when some result's event is found, is in the year when one is given, and its game resolves with the given type |
| LeaderboardOptions.HasResultsIffScoped | src/features/leaderboard/utils/calculations/options.ts:29-46 | for a year, a type has results exactly when the results its leaderboard is aggregated from are not empty |
| LeaderboardOptions.GetLeader | src/features/leaderboard/utils/calculations/options.ts:45-48 | never unset; none exactly when that board is empty; otherwise the board's first row, a shown player |
| LeaderboardOptions.OptionsForYear | src/features/leaderboard/utils/calculations/options.ts:72-93 | options of one year, all for that year and each built from its type's results; a type gets an option exactly when it has results; the board-game option precedes the video-game option |
| LeaderboardOptions.OptionsForYears | src/features/leaderboard/utils/calculations/options.ts:71-94 | every option is a year option for an available year |
| LeaderboardOptions.OptionsForYearsComplete | src/features/leaderboard/utils/calculations/options.ts:71-94 | every available year and type with results gets an option |
| LeaderboardOptions.OptionsForYearsOrdered | src/features/leaderboard/utils/calculations/options.ts:71-94 | for strictly descending years, options come newest year first with the board-game option before the video-game option within a year, so no year and type appears twice |
| LeaderboardOptions.GetLeaderboardOptions | src/features/leaderboard/utils/calculations/options.ts:18-107 | never empty; every option is either the fallback or a year option |
| LeaderboardOptions.YearOptionShows | src/features/leaderboard/utils/calculations/options.ts:74-93 | a year option's year and type have results, its label is "Board Games <year>" or "Video Games <year>", its value is "board-<year>" or "video-<year>", it is a championship exactly when its year is before the current year, and its leader is that board's first row |
| LeaderboardOptions.OptionValuesParse | src/features/leaderboard/utils/calculations/options.ts:79-102 | every offered value, including the fallback's, parses back to the option's game type and year |
| LeaderboardOptions.NoOptionsIffNoResults | src/features/leaderboard/utils/calculations/options.ts:71-97 | the year loop yields nothing exactly when no available year has results of either type |
| LeaderboardOptions.FallbackExactlyWhenNoResults | src/features/leaderboard/utils/calculations/options.ts:96-104 | the only option is the current-year board-game option with neither a leader nor a championship flag exactly when no available year has results |
| LeaderboardOptions.OptionsCoverResults | src/features/leaderboard/utils/calculations/options.ts:70-94 | when some available year has results, every option is a year option and every available year and type with results is offered |
| Selection.BeforeDash | src/features/leaderboard/utils/helpers.ts:17 | the first segment of `split("-")`: a prefix of the text containing no '-', followed by a '-' unless it is the whole text |
| Selection.ParseLeaderboardSelection | src/features/leaderboard/utils/helpers.ts:16-22 | the game type is the text before the first '-', and a selection without '-' has that whole text as its type and a year that is not a number |
| Selection.NumberValue | src/features/leaderboard/utils/helpers.ts:20 | `Number` of the year text: the empty text is 0, a digit string its decimal value, anything else not a number |
| Selection.LaterSegmentsIgnored | src/features/leaderboard/utils/helpers.ts:17-20 | only the segment between the first and second '-' decides the year; anything after a second '-' is ignored |
| Selection.ParseJoined | src/features/leaderboard/utils/helpers.ts:16-22 | for a type and a year text without '-', parsing "type-year" gives that type, and no year when the text is "all"; otherwise it gives the year `Number` reads from the text |
| Selection.ParseJoinedYear | src/features/leaderboard/utils/helpers.ts:16-22 | for a type without '-', parsing "type-" followed by the decimal text of a year gives back that type and year |
| Selection.ParseBoardExample | src/features/leaderboard/utils/helpers.ts:13 | "board-2025" parses to board and 2025 |
| Selection.ParseVideoAllExample | src/features/leaderboard/utils/helpers.ts:14 | "video-all" parses to video and no year |
| Decimal.NatToString | src/features/leaderboard/utils/calculations/options.ts:78-79 | the text a template literal writes for a year: nonempty, all decimal digits, and without a leading zero for a positive year |
| Decimal.ParseNatToString | src/features/leaderboard/utils/calculations/options.ts:79 | the decimal text a template literal writes for a year reads back as that year |
| Seqs.SliceFrom | src/features/players/utils/calculations/aggregates.ts:91 | `slice(start)` is a suffix, whose length follows JavaScript's clamping of negative and out-of-range starts |
| Seqs.SliceTo | src/features/players/utils/calculations/aggregates.ts:126 | `slice(0, end)` is a prefix, whose length follows JavaScript's clamping of negative and out-of-range ends |
| FormDisplay.Trimmed | src/features/leaderboard/components/LeaderboardTable.tsx:40-49 | the trimmed form is a prefix of the form, is empty or ends in a value, and everything dropped is null |
| FormDisplay.TrimTrailingNulls | src/features/leaderboard/components/LeaderboardTable.tsx:40-49 | the backward scan for the last non-null value returns a prefix that is empty or ends in a value, drops only nulls, and equals the reference trim |
| FormDisplay.TrimmedUnique | src/features/leaderboard/components/LeaderboardTable.tsx:40-49 | at most one prefix is empty-or-ends-in-a-value and drops only nulls |
| FormDisplay.TrimmedKeepsValues | src/features/leaderboard/components/LeaderboardTable.tsx:42-48 | no non-null value is trimmed away |
| FormDisplay.TrimmedAllNull | src/features/leaderboard/components/LeaderboardTable.tsx:48 | an empty or all-null form trims to nothing |
| FormDisplay.TrimmedIdempotent | src/features/leaderboard/components/LeaderboardTable.tsx:40-49 | trimming twice is trimming once |
| FormDisplay.FormatFormValue | src/features/leaderboard/components/LeaderboardTable.tsx:33-38 | null shows an em dash, a positive value "+" followed by its decimal digits without a leading zero, 0 shows "0", and a negative value "-" followed by the decimal digits of its magnitude without a leading zero |
| FormDisplay.FormatFormValueInjective | src/features/leaderboard/components/LeaderboardTable.tsx:33-38 | different form values are shown as different texts |
| FormDisplay.Tone | src/features/leaderboard/components/LeaderboardTable.tsx:25-31 | every value falls in exactly one of five cases: null, at least 3, 1 to 2, 0, negative |
| FormDisplay.GetFormColor | src/features/leaderboard/components/LeaderboardTable.tsx:25-31 | null gets the grey classes, 3 and above the success classes, 1 and 2 the primary classes, 0 the light-grey classes, and a negative value the danger classes |
| FormDisplay.GetFormColorClasses | src/features/leaderboard/components/LeaderboardTable.tsx:25-31 | two values get the same classes exactly when they fall in the same one of the five cases |
| FormDisplay.MaxFormLength | src/features/leaderboard/components/LeaderboardTable.tsx:59-62 | the fold is at least every row's trimmed form length and equals one of them; 0 for no rows |
| FormDisplay.FormColumnOf | src/features/leaderboard/components/LeaderboardTable.tsx:183-197 | the placeholder exactly when the common length is 0; otherwise the first min(length, form size) entries, reversed so the oldest comes first |
| FormDisplay.EveryFormValueShown | src/features/leaderboard/components/LeaderboardTable.tsx:183-187 | with the common length of the whole table, every non-null value of every row is among that row's displayed cells, in its reversed position |
| FormDisplay.PlaceholderWhenNoValues | src/features/leaderboard/components/LeaderboardTable.tsx:59-62 | when no row has any form value the common length is 0, so every row shows the placeholder |

## Left out

- Rendering, routing, React state and effects, and the rest of `LeaderboardTable` (rank icons, border colours, scroll shadows) are not modelled: they are UI.
- The `*/utils/hooks.ts` memo wrappers and the UI context are not modelled: their targets are not among the modelled sources.
- `getDisplayName` and `getColorForGame` are not modelled. A row carries the looked-up game (or none) instead of the name and colour derived from it.
- `calculateWinRatePercent`, `sortEventsByDate`, `sortLeaderboard`, `computePlayerData` and `getAvailableYears` are parameters, not definitions: their code is not part of this model.
- Dates are not parsed: an event carries its year, and the current year is a parameter.
- Win rates are exact rationals (`real`), not IEEE doubles: `wins / games` rounding is not modelled.
- Selection.NumberValue: `Number(yearStr)` is modelled only for the empty text (0), plain digit strings and everything else (not a number). Signs, decimals, exponents, whitespace and hexadecimal forms that `Number` also accepts are not distinguished from "not a number".
- `parseLeaderboardSelection`'s cast of the type text to a game type is not checked by the source. The model keeps the raw text.
- The "All Board Games" and "All Video Games" options are commented out in the source, and are not modelled.
- `Object.entries` order is not modelled. For the game rows the model lists games in order of first appearance; JavaScript would list integer-like game ids first. No contract depends on the row order.
- Ranks are integers. A fractional or non-finite rank, which `Number.isFinite` would keep or drop, is not represented.
- GamePicks.FindBestGame, GamePicks.FindMostPlayed, GamePicks.FindMostPoints: the comparator keys are `wr` then `games`, `games` then `wr`, and `points` then `wr`. `NaN` keys, which would break the comparator's ordering, cannot occur in the model.
- LeaderboardOptions.OptionsForYearsOrdered: assumes the available years are strictly descending. `getAvailableYears` is not part of this model, and the ordering holds only under that assumption.
- RecentForm.BuildRecentFormSeries: does not state which events `sortEventsByDate` puts first. That helper is a parameter.
- PlayerPage.AggregatePlayerStatsForPage: states the defaults' effect on the series lengths, not the series values. Those are stated by the members it composes (`BuildWinRateSeries`, `BuildRecentFormSeries`).

=== FILE: decimal.dfy ===
/** Decimal text of naturals, as JavaScript's template literals and `toString`
    write them, and the reading of a plain digit string, as `Number` does. */
module Decimal {

  predicate IsDigit(c: char) {
    '0' <= c <= '9'
  }

  predicate AllDigits(s: string) {
    forall i :: 0 <= i < |s| ==> IsDigit(s[i])
  }

  function DigitChar(d: nat): (c: char)
    requires d < 10
    ensures IsDigit(c)
  {
    ['0', '1', '2', '3', '4', '5', '6', '7', '8', '9'][d]
  }

  function DigitValue(c: char): (d: nat)
    requires IsDigit(c)
    ensures d < 10
    ensures DigitChar(d) == c
  {
    (c as int - '0' as int) as nat
  }

  /** `${n}` for a natural `n`: its decimal digits, without leading zeros. */
  function NatToString(n: nat): (s: string)
    ensures |s| > 0 && AllDigits(s)
    ensures n > 0 ==> s[0] != '0'
    decreases n
  {
    if n < 10 then [DigitChar(n)] else NatToString(n / 10) + [DigitChar(n % 10)]
  }

  /** The value of a digit string, read most significant digit first. */
  function ParseDigits(s: string): (n: nat)
    requires AllDigits(s)
    decreases |s|
  {
    if s == [] then 0 else ParseDigits(s[..|s| - 1]) * 10 + DigitValue(s[|s| - 1])
  }

  /** Reading back the decimal text of `n` gives `n`. */
  lemma {:induction false} ParseNatToString(n: nat)
    ensures ParseDigits(NatToString(n)) == n
    decreases n
  {
    var s := NatToString(n);
    if n >= 10 {
      ParseNatToString(n / 10);
      assert s[..|s| - 1] == NatToString(n / 10);
    }
  }
}

=== FILE: domain.dfy ===
/** The records the statistics layer reads and the rows it derives
    (src/features/players/types.d.ts and the games/events record types),
    together with the thresholds and display limits it uses. */
module Domain {
  import opened Wrappers

  /** The two game categories. */
  datatype GameType = Board | Video

  /** The text of a game type, as it appears in leaderboard selection values. */
  function TypeName(t: GameType): string {
    match t
    case Board => "board"
    case Video => "video"
  }

  datatype Game = Game(id: string, name: string, points: int, gameType: GameType, color: string)

  datatype Player = Player(
    id: string,
    firstName: string,
    lastName: string,
    preferredName: Option<string>,
    color: string,
    showOnLeaderboard: bool,
    linkedUserId: Option<string>)

  /** A game night; its calendar date is represented by its year alone. */
  datatype Event = Event(id: string, year: nat, playerIds: seq<string>, gameIds: seq<string>)

  /** One player's line in a result. */
  datatype PlayerResult = PlayerResult(playerId: string, rank: Option<int>, isWinner: bool, isLoser: bool)

  /** The outcome of one game played at one event. */
  datatype Result = Result(id: string, eventId: string, gameId: string, order: int, playerResults: seq<PlayerResult>)

  /** One of a player's results, seen from that player (a `PlayerEntry`). */
  datatype PlayerEntry = PlayerEntry(
    resultId: string,
    gameId: string,
    isWinner: Option<bool>,
    isLoser: Option<bool>,
    rank: Option<int>,
    opponents: seq<string>)

  /** A player won an entry exactly when its winner flag is set (a null flag is not a win). */
  predicate IsPlayerWinner(e: PlayerEntry) {
    e.isWinner == Some(true)
  }

  /** Per-game statistics of one player (a `GameWinRateRow`); `game` is the resolved
      game record, from which the display name and colour are taken. */
  datatype GameWinRateRow = GameWinRateRow(gameId: string, game: Option<Game>, games: nat, wins: nat, wr: real, points: int)

  datatype BestGame = BestGame(gameId: string, gameName: string, gameType: GameType, points: int)

  /** Aggregated statistics of one player; `recentForm` is newest first. */
  datatype PlayerData = PlayerData(
    playerId: string,
    points: int,
    wins: nat,
    games: nat,
    winRate: real,
    recentForm: seq<Option<int>>,
    bestGame: Option<BestGame>)

  datatype PlayerWithData = PlayerWithData(player: Player, data: PlayerData)

  /** The game with the given id, if the lookup knows it (`gameById.get(id)`). */
  function LookupGame(gameById: map<string, Game>, id: string): Option<Game> {
    if id in gameById then Some(gameById[id]) else None
  }

  /** `game?.type === t`: the game resolves and has type `t`. */
  predicate HasGameType(gameById: map<string, Game>, gameId: string, t: GameType) {
    gameId in gameById && gameById[gameId].gameType == t
  }

  // STATS_THRESHOLDS
  const MinGamesForBestGame: int := 3
  const MinGamesForLeaderboard: int := 1

  // DISPLAY_LIMITS.CHARTS
  const RecentGames: int := 20
  const RecentFormEvents: int := 5
}

=== FILE: filtering.dfy ===
/** Leaderboards (src/features/leaderboard/utils/calculations/filtering.ts): the players
    shown, and the board scoped to one game type and year. */
module Filtering {
  import opened Wrappers
  import opened Domain
  import opened Seqs

  /** `computePlayerData(players, results, gameById, events, gameType)`. */
  type PlayerDataFn = (seq<Player>, seq<Result>, map<string, Game>, seq<Event>, Option<GameType>) -> seq<PlayerWithData>

  /** The aggregation and ordering helpers the leaderboard code calls; their bodies
      belong to other modules. */
  datatype Services = Services(computePlayerData: PlayerDataFn, sortLeaderboard: seq<PlayerWithData> -> seq<PlayerWithData>)

  /** The one thing the leaderboard relies on: sorting reorders and never adds or drops rows. */
  ghost predicate SortPermutes(s: Services) {
    forall ps: seq<PlayerWithData> :: multiset(s.sortLeaderboard(ps)) == multiset(ps)
  }

  type Collaborators = s: Services | SortPermutes(s)
    witness Services((players, results, gameById, events, gameType) => [], ps => ps)

  /** A player is shown on a leaderboard: enough games (MIN_GAMES_FOR_LEADERBOARD) and visible. */
  predicate OnLeaderboard(p: PlayerWithData) {
    p.data.games >= MinGamesForLeaderboard && p.player.showOnLeaderboard
  }

  /** The filter of `getLeaderboard`: shown players with enough games, each as often as in the input. */
  function Qualifying(ps: seq<PlayerWithData>): (r: seq<PlayerWithData>)
    ensures forall i :: 0 <= i < |r| ==> OnLeaderboard(r[i])
    ensures forall p :: multiset(r)[p] == if OnLeaderboard(p) then multiset(ps)[p] else 0
  {
    FilterCounts(ps, OnLeaderboard);
    Filter(ps, OnLeaderboard)
  }

  /** Filtering an already filtered list changes nothing. */
  lemma QualifyingIdempotent(ps: seq<PlayerWithData>)
    ensures Qualifying(Qualifying(ps)) == Qualifying(ps)
  {
    FilterIdempotent(ps, OnLeaderboard);
  }

  /** `getLeaderboard`: every row is a shown player, and every shown player of the input
      appears exactly as often as in the input; nobody else appears. */
  function GetLeaderboard(ps: seq<PlayerWithData>, c: Collaborators): (r: seq<PlayerWithData>)
    ensures forall i :: 0 <= i < |r| ==> OnLeaderboard(r[i])
    ensures forall p :: multiset(r)[p] == if OnLeaderboard(p) then multiset(ps)[p] else 0
  {
    var r := c.sortLeaderboard(Qualifying(ps));
    assert forall i :: 0 <= i < |r| ==> OnLeaderboard(r[i]) by {
      forall i | 0 <= i < |r| ensures OnLeaderboard(r[i]) {
        assert r[i] in multiset(r);
      }
    }
    r
  }

  /** The leaderboard filter leaves a leaderboard as it is. */
  lemma LeaderboardFilterFixed(ps: seq<PlayerWithData>, c: Collaborators)
    ensures Qualifying(GetLeaderboard(ps, c)) == GetLeaderboard(ps, c)
  {
    FilterAllPass(GetLeaderboard(ps, c), OnLeaderboard);
  }

  /** `events.find(e => e.id === id)`. */
  function FindEvent(events: seq<Event>, id: string): (r: Option<Event>)
    ensures r.Some? ==> r.value in events && r.value.id == id
    ensures r.Some? ==> exists k :: 0 <= k < |events| && events[k] == r.value
                                    && forall j :: 0 <= j < k ==> events[j].id != id
    ensures r.None? <==> forall i :: 0 <= i < |events| ==> events[i].id != id
  {
    Find(events, (e: Event) => e.id == id)
  }

  /** A result is held in year `y`: its event is found and is in that year. */
  predicate HeldIn(events: seq<Event>, y: nat, r: Result) {
    var ev := FindEvent(events, r.eventId);
    ev.Some? && ev.value.year == y
  }

  function YearTest(events: seq<Event>, y: nat): Result -> bool {
    (r: Result) => HeldIn(events, y, r)
  }

  function TypeTest(gameById: map<string, Game>, t: GameType): Result -> bool {
    (r: Result) => HasGameType(gameById, r.gameId, t)
  }

  /** `filterResultsByYear`: no year keeps every result; a year keeps the results whose
      event is found and held in that year. */
  function FilterResultsByYear(results: seq<Result>, events: seq<Event>, year: Option<nat>): (r: seq<Result>)
    ensures year.None? ==> r == results
    ensures year.Some? ==> forall x :: multiset(r)[x] == if HeldIn(events, year.value, x) then multiset(results)[x] else 0
  {
    if year.None? then results
    else
      FilterCounts(results, YearTest(events, year.value));
      Filter(results, YearTest(events, year.value))
  }

  /** The type filter of `getLeaderboardByTypeAndYear`: keep a result exactly when its
      game resolves and has the requested type. */
  function FilterByGameType(results: seq<Result>, gameById: map<string, Game>, t: GameType): (r: seq<Result>)
    ensures forall x :: multiset(r)[x] == if HasGameType(gameById, x.gameId, t) then multiset(results)[x] else 0
  {
    FilterCounts(results, TypeTest(gameById, t));
    Filter(results, TypeTest(gameById, t))
  }

  /** A result belongs to the board of type `t` and year `year`. */
  predicate InScope(events: seq<Event>, gameById: map<string, Game>, t: GameType, year: Option<nat>, r: Result) {
    (year.None? || HeldIn(events, year.value, r)) && HasGameType(gameById, r.gameId, t)
  }

  /** The results a scoped board is aggregated from: the year filter, then the type filter.
      They are exactly the input results in scope, each as often as in the input. */
  function ScopedResults(results: seq<Result>, events: seq<Event>, gameById: map<string, Game>,
                         t: GameType, year: Option<nat>): (r: seq<Result>)
    ensures forall x :: multiset(r)[x] == if InScope(events, gameById, t, year, x) then multiset(results)[x] else 0
  {
    FilterByGameType(FilterResultsByYear(results, events, year), gameById, t)
  }

  /** Running the type filter before the year filter would give the same results in the same order. */
  lemma YearAndTypeFiltersCommute(results: seq<Result>, events: seq<Event>, gameById: map<string, Game>, t: GameType, y: nat)
    ensures ScopedResults(results, events, gameById, t, Some(y))
            == FilterResultsByYear(FilterByGameType(results, gameById, t), events, Some(y))
  {
    FilterCommutes(results, YearTest(events, y), TypeTest(gameById, t));
  }

  /** `getLeaderboardByTypeAndYear`: the board of the players aggregated from the
      in-scope results only. Every row is a shown player, and each shown player of that
      aggregation appears exactly as often as it does there. */
  function GetLeaderboardByTypeAndYear(players: seq<Player>, results: seq<Result>, events: seq<Event>,
                                       gameById: map<string, Game>, t: GameType, year: Option<nat>,
                                       c: Collaborators): (r: seq<PlayerWithData>)
    ensures forall i :: 0 <= i < |r| ==> OnLeaderboard(r[i])
    ensures var data := c.computePlayerData(players, ScopedResults(results, events, gameById, t, year), gameById, events, Some(t));
            forall p :: multiset(r)[p] == if OnLeaderboard(p) then multiset(data)[p] else 0
  {
    var typeFiltered := ScopedResults(results, events, gameById, t, year);
    var playerData := c.computePlayerData(players, typeFiltered, gameById, events, Some(t));
    GetLeaderboard(playerData, c)
  }
}

=== FILE: form_display.dfy ===
/** The recent-form column of the leaderboard table (the module-level helpers of
    src/features/leaderboard/components/LeaderboardTable.tsx): trimming the events a
    player missed off the end of a form, the text and colour of one form cell, and the
    common number of cells every row shows. */
module FormDisplay {
  import opened Wrappers
  import opened Domain
  import opened Seqs
  import opened Decimal

  /** A recent form: one value per event, newest first; `None` where the player did not play. */
  type Form = seq<Option<int>>

  /** `trimTrailingNulls`, as a reference definition: drop `None`s off the end, one at a time. */
  function Trimmed(arr: Form): (r: Form)
    ensures |r| <= |arr| && r == arr[..|r|]
    ensures r == [] || r[|r| - 1].Some?
    ensures forall k :: |r| <= k < |arr| ==> arr[k].None?
    decreases |arr|
  {
    if |arr| == 0 then []
    else if arr[|arr| - 1].None? then Trimmed(arr[..|arr| - 1])
    else arr
  }

  /** The three facts above pin the trimmed form down: at most one prefix has them. */
  lemma TrimmedUnique(arr: Form, r: Form)
    requires |r| <= |arr| && r == arr[..|r|]
    requires r == [] || r[|r| - 1].Some?
    requires forall k :: |r| <= k < |arr| ==> arr[k].None?
    ensures r == Trimmed(arr)
  {
  }

  /** `trimTrailingNulls` as written: scan from the end for the last non-null value and
      keep everything up to it. */
  method TrimTrailingNulls(arr: Form) returns (r: Form)
    ensures |r| <= |arr| && r == arr[..|r|]
    ensures r == [] || r[|r| - 1].Some?
    ensures forall k :: |r| <= k < |arr| ==> arr[k].None?
    ensures r == Trimmed(arr)
  {
    var lastNonNullIndex := -1;
    var i := |arr| - 1;
    while i >= 0
      invariant -1 <= i < |arr|
      invariant lastNonNullIndex == -1
      invariant forall k :: i < k < |arr| ==> arr[k].None?
      decreases i + 1
    {
      if arr[i].Some? {
        lastNonNullIndex := i;
        break;
      }
      i := i - 1;
    }
    assert lastNonNullIndex == -1 ==> forall k :: 0 <= k < |arr| ==> arr[k].None?;
    assert lastNonNullIndex != -1 ==>
             && 0 <= lastNonNullIndex < |arr| && arr[lastNonNullIndex].Some?
             && forall k :: lastNonNullIndex < k < |arr| ==> arr[k].None?;
    r := if lastNonNullIndex == -1 then [] else arr[..lastNonNullIndex + 1];
    TrimmedUnique(arr, r);
  }

  /** No non-null value is trimmed away. */
  lemma TrimmedKeepsValues(arr: Form, k: nat)
    requires k < |arr| && arr[k].Some?
    ensures k < |Trimmed(arr)|
  {
  }

  /** A form of only `None`s (or none at all) trims to nothing. */
  lemma TrimmedAllNull(arr: Form)
    requires forall k :: 0 <= k < |arr| ==> arr[k].None?
    ensures Trimmed(arr) == []
  {
  }

  /** Trimming twice is trimming once. */
  lemma TrimmedIdempotent(arr: Form)
    ensures Trimmed(Trimmed(arr)) == Trimmed(arr)
  {
    var t := Trimmed(arr);
    TrimmedUnique(t, t);
  }

  /** `formatFormValue`: an em dash for no value, an explicit `+` before a positive
      value, and the usual signed decimal otherwise. */
  function FormatFormValue(points: Option<int>): (s: string)
    ensures points.None? ==> s == "\U{2014}"
    ensures points.Some? && points.value > 0 ==>
              |s| >= 2 && s[0] == '+' && s[1] != '0' && AllDigits(s[1..]) && ParseDigits(s[1..]) == points.value
    ensures points == Some(0) ==> s == "0"
    ensures points.Some? && points.value < 0 ==>
              |s| >= 2 && s[0] == '-' && s[1] != '0' && AllDigits(s[1..]) && ParseDigits(s[1..]) == -points.value
  {
    match points
    case None => "\U{2014}"
    case Some(n) =>
      if n > 0 then
        ParseNatToString(n);
        "+" + NatToString(n)
      else if n == 0 then "0"
      else
        ParseNatToString(-n);
        "-" + NatToString(-n)
  }

  /** Different form values are shown differently. */
  lemma FormatFormValueInjective(a: Option<int>, b: Option<int>)
    requires FormatFormValue(a) == FormatFormValue(b)
    ensures a == b
  {
    var s := FormatFormValue(a);
    if a.Some? && a.value > 0 {
      assert b.Some? && b.value > 0 && s[1..] == FormatFormValue(b)[1..];
    } else if a.Some? && a.value < 0 {
      assert b.Some? && b.value < 0 && s[1..] == FormatFormValue(b)[1..];
    } else if a == Some(0) {
      assert s[0] == '0';
    }
  }

  /** The five looks of a form cell. */
  datatype FormTone = Absent | Strong | Positive | Even | Negative

  /** The case analysis of `getFormColor`: no value, at least 3, 1 or 2, 0, below 0. */
  function Tone(points: Option<int>): (t: FormTone)
    ensures t == Absent <==> points.None?
    ensures t == Strong <==> points.Some? && points.value >= 3
    ensures t == Positive <==> points.Some? && 0 < points.value < 3
    ensures t == Even <==> points == Some(0)
    ensures t == Negative <==> points.Some? && points.value < 0
  {
    match points
    case None => Absent
    case Some(n) =>
      if n >= 3 then Strong
      else if n > 0 then Positive
      else if n == 0 then Even
      else Negative
  }

  /** The style classes of each look. */
  function ToneClass(t: FormTone): string {
    match t
    case Absent => "bg-gray-700 text-gray-400"
    case Strong => "bg-[var(--color-success)] text-[var(--color-success-contrast)]"
    case Positive => "bg-[var(--color-primary)] text-[var(--color-primary-contrast)]"
    case Even => "bg-gray-500 text-white"
    case Negative => "bg-[var(--color-danger)] text-[var(--color-danger-contrast)]"
  }

  /** `getFormColor`: grey for no value, the success colours from 3 up, the primary
      colours for 1 and 2, a lighter grey for 0 and the danger colours below 0. */
  function GetFormColor(points: Option<int>): (c: string)
    ensures points.None? ==> c == "bg-gray-700 text-gray-400"
    ensures points.Some? && points.value >= 3 ==>
              c == "bg-[var(--color-success)] text-[var(--color-success-contrast)]"
    ensures points.Some? && 0 < points.value < 3 ==>
              c == "bg-[var(--color-primary)] text-[var(--color-primary-contrast)]"
    ensures points == Some(0) ==> c == "bg-gray-500 text-white"
    ensures points.Some? && points.value < 0 ==>
              c == "bg-[var(--color-danger)] text-[var(--color-danger-contrast)]"
  {
    ToneClass(Tone(points))
  }

  /** Each look has its own classes. */
  lemma ToneClassInjective(a: FormTone, b: FormTone)
    ensures ToneClass(a) == ToneClass(b) ==> a == b
  {
  }

  /** Two form values get the same classes exactly when they fall in the same one of the
      five cases. */
  lemma GetFormColorClasses(a: Option<int>, b: Option<int>)
    ensures GetFormColor(a) == GetFormColor(b) <==> Tone(a) == Tone(b)
  {
    ToneClassInjective(Tone(a), Tone(b));
  }

  /** The trimmed length of a row's form. */
  function TrimmedLength(row: PlayerWithData): nat {
    |Trimmed(row.data.recentForm)|
  }

  /** `maxFormLength`: the `reduce` over the rows, starting from 0, keeping the larger of
      the running maximum and each row's trimmed form length. It is the longest trimmed
      form, and 0 for no rows. */
  function MaxFormLength(rows: seq<PlayerWithData>): (m: nat)
    ensures forall i :: 0 <= i < |rows| ==> TrimmedLength(rows[i]) <= m
    ensures |rows| == 0 ==> m == 0
    ensures |rows| > 0 ==> exists i :: 0 <= i < |rows| && TrimmedLength(rows[i]) == m
    decreases |rows|
  {
    if |rows| == 0 then 0
    else
      var prev := MaxFormLength(rows[..|rows| - 1]);
      var here := TrimmedLength(rows[|rows| - 1]);
      assert forall i :: 0 <= i < |rows| - 1 ==> rows[..|rows| - 1][i] == rows[i];
      if prev >= here then
        (if |rows| > 1 then
           var j :| 0 <= j < |rows| - 1 && TrimmedLength(rows[..|rows| - 1][j]) == prev;
           assert rows[j] == rows[..|rows| - 1][j];
           prev
         else prev)
      else here
  }

  /** What a row's form cell holds: a placeholder when no row has any value, else the
      row's form cut to the common length and reversed, oldest first. */
  datatype FormColumn = Placeholder | Cells(points: Form)

  function FormColumnOf(form: Form, maxFormLength: nat): (c: FormColumn)
    ensures c.Placeholder? <==> maxFormLength == 0
    ensures c.Cells? ==> |c.points| == (if maxFormLength < |form| then maxFormLength else |form|)
    ensures c.Cells? ==> forall k :: 0 <= k < |c.points| ==> c.points[k] == form[|c.points| - 1 - k]
  {
    if maxFormLength > 0 then Cells(Reverse(SliceTo(form, maxFormLength))) else Placeholder
  }

  /** On a leaderboard, every value any row has is shown: the common length covers every
      row's values, and a row without values shows only placeholders when no row has any. */
  lemma EveryFormValueShown(rows: seq<PlayerWithData>, i: nat, k: nat)
    requires i < |rows| && k < |rows[i].data.recentForm| && rows[i].data.recentForm[k].Some?
    ensures var c := FormColumnOf(rows[i].data.recentForm, MaxFormLength(rows));
      c.Cells? && k < |c.points| && c.points[|c.points| - 1 - k] == rows[i].data.recentForm[k]
  {
    TrimmedKeepsValues(rows[i].data.recentForm, k);
  }

  /** No row shows any cell when no row played any of the counted events. */
  lemma PlaceholderWhenNoValues(rows: seq<PlayerWithData>)
    requires forall i, k :: 0 <= i < |rows| && 0 <= k < |rows[i].data.recentForm| ==> rows[i].data.recentForm[k].None?
    ensures MaxFormLength(rows) == 0
  {
    if |rows| > 0 {
      var i :| 0 <= i < |rows| && TrimmedLength(rows[i]) == MaxFormLength(rows);
      TrimmedAllNull(rows[i].data.recentForm);
    }
  }
}

=== FILE: game_picks.dfy ===
/** Picking one game row out of a player's rows (`findBestGame`, `findMostPlayed`,
    `findMostPoints`). Each sorts a copy of the rows with a two-key comparator and takes
    the first element; the sort is stable, so the pick is the earliest row that no other
    row sorts strictly before. */
module GamePicks {
  import opened Wrappers
  import opened Domain

  /** The comparators: win rate then games, games then win rate, points then win rate. */
  datatype Criterion = ByWinRate | ByGames | ByPoints

  function PrimaryKey(row: GameWinRateRow, c: Criterion): real {
    match c
    case ByWinRate => row.wr
    case ByGames => row.games as real
    case ByPoints => row.points as real
  }

  function SecondaryKey(row: GameWinRateRow, c: Criterion): real {
    match c
    case ByWinRate => row.games as real
    case ByGames => row.wr
    case ByPoints => row.wr
  }

  /** `a` sorts strictly before `b`: a larger first key, or an equal first key and a larger second key. */
  predicate Better(a: GameWinRateRow, b: GameWinRateRow, c: Criterion) {
    PrimaryKey(a, c) > PrimaryKey(b, c)
    || (PrimaryKey(a, c) == PrimaryKey(b, c) && SecondaryKey(a, c) > SecondaryKey(b, c))
  }

  /** The comparator is a strict weak order: if `x` beats `z`, every `y` is beaten by `x` or beats `z`. */
  lemma BetterNegativelyTransitive(x: GameWinRateRow, y: GameWinRateRow, z: GameWinRateRow, c: Criterion)
    ensures Better(x, z, c) ==> Better(x, y, c) || Better(y, z, c)
  {
  }

  predicate Qualifies(row: GameWinRateRow, minGames: int) {
    row.games >= minGames
  }

  /** Index of the first row of the sorted qualifying rows: a qualifying row that no
      qualifying row beats, and that beats every qualifying row before it. */
  function FirstBest(rows: seq<GameWinRateRow>, c: Criterion, minGames: int): (r: Option<nat>)
    ensures r.None? <==> forall i :: 0 <= i < |rows| ==> !Qualifies(rows[i], minGames)
    ensures r.Some? ==> r.value < |rows| && Qualifies(rows[r.value], minGames)
    ensures r.Some? ==> forall i :: 0 <= i < |rows| && Qualifies(rows[i], minGames) ==> !Better(rows[i], rows[r.value], c)
    ensures r.Some? ==> forall i :: 0 <= i < r.value && Qualifies(rows[i], minGames) ==> Better(rows[r.value], rows[i], c)
    decreases |rows|
  {
    if rows == [] then None
    else
      var rest := FirstBest(rows[1..], c, minGames);
      if rest.None? then
        if Qualifies(rows[0], minGames) then Some(0) else None
      else if !Qualifies(rows[0], minGames) || Better(rows[rest.value + 1], rows[0], c) then
        Some(rest.value + 1)
      else
        assert forall i :: 0 <= i < |rows| && Qualifies(rows[i], minGames) ==> !Better(rows[i], rows[0], c) by {
          forall i | 0 <= i < |rows| && Qualifies(rows[i], minGames) ensures !Better(rows[i], rows[0], c) {
            if i > 0 {
              assert rows[i] == rows[1..][i - 1];
              BetterNegativelyTransitive(rows[i], rows[rest.value + 1], rows[0], c);
            }
          }
        }
        Some(0)
  }

  /** The row at the index `FirstBest` picks. */
  function Pick(rows: seq<GameWinRateRow>, c: Criterion, minGames: int): (r: Option<GameWinRateRow>)
    ensures r.None? <==> forall i :: 0 <= i < |rows| ==> !Qualifies(rows[i], minGames)
    ensures r.Some? ==>
              exists k :: 0 <= k < |rows| && rows[k] == r.value && Qualifies(rows[k], minGames) &&
                (forall i :: 0 <= i < k && Qualifies(rows[i], minGames) ==> Better(r.value, rows[i], c))
    ensures r.Some? ==> forall i :: 0 <= i < |rows| && Qualifies(rows[i], minGames) ==> !Better(rows[i], r.value, c)
  {
    match FirstBest(rows, c, minGames)
    case None => None
    case Some(k) => Some(rows[k])
  }

  /** `findBestGame`: none exactly when no row has at least `minGames` games; otherwise a
      row with at least `minGames` games such that no such row has a higher win rate, or
      the same win rate with more games, and every such row before it is strictly worse. */
  function FindBestGame(rows: seq<GameWinRateRow>, minGames: int): (r: Option<GameWinRateRow>)
    ensures r.None? <==> forall i :: 0 <= i < |rows| ==> rows[i].games < minGames
    ensures r.Some? ==> r.value in rows && r.value.games >= minGames
    ensures r.Some? ==> forall i :: 0 <= i < |rows| && rows[i].games >= minGames ==>
              rows[i].wr < r.value.wr || (rows[i].wr == r.value.wr && rows[i].games <= r.value.games)
    ensures r.Some? ==>
              exists k :: 0 <= k < |rows| && rows[k] == r.value &&
                (forall i :: 0 <= i < k && rows[i].games >= minGames ==>
                   rows[i].wr < r.value.wr || (rows[i].wr == r.value.wr && rows[i].games < r.value.games))
  {
    Pick(rows, ByWinRate, minGames)
  }

  /** `findMostPlayed`: none exactly for no rows; otherwise a row with the most games,
      the highest win rate among those, and the earliest of the rows tied with it. */
  function FindMostPlayed(rows: seq<GameWinRateRow>): (r: Option<GameWinRateRow>)
    ensures r.None? <==> |rows| == 0
    ensures r.Some? ==> r.value in rows
    ensures r.Some? ==> forall i :: 0 <= i < |rows| ==>
              rows[i].games < r.value.games || (rows[i].games == r.value.games && rows[i].wr <= r.value.wr)
    ensures r.Some? ==>
              exists k :: 0 <= k < |rows| && rows[k] == r.value &&
                (forall i :: 0 <= i < k ==>
                   rows[i].games < r.value.games || (rows[i].games == r.value.games && rows[i].wr < r.value.wr))
  {
    assert forall i :: 0 <= i < |rows| ==> Qualifies(rows[i], 0);
    Pick(rows, ByGames, 0)
  }

  /** `findMostPoints`: none exactly for no rows; otherwise a row with the most points,
      the highest win rate among those, and the earliest of the rows tied with it. */
  function FindMostPoints(rows: seq<GameWinRateRow>): (r: Option<GameWinRateRow>)
    ensures r.None? <==> |rows| == 0
    ensures r.Some? ==> r.value in rows
    ensures r.Some? ==> forall i :: 0 <= i < |rows| ==>
              rows[i].points < r.value.points || (rows[i].points == r.value.points && rows[i].wr <= r.value.wr)
    ensures r.Some? ==>
              exists k :: 0 <= k < |rows| && rows[k] == r.value &&
                (forall i :: 0 <= i < k ==>
                   rows[i].points < r.value.points || (rows[i].points == r.value.points && rows[i].wr < r.value.wr))
  {
    assert forall i :: 0 <= i < |rows| ==> Qualifies(rows[i], 0);
    Pick(rows, ByPoints, 0)
  }
}

=== FILE: game_win_rates.dfy ===
/** Per-game win-rate rows of one player (`buildGameWinRates`): one row per distinct
    game id among the player's entries, in order of first appearance. */
module GameWinRates {
  import opened Domain

  /** The per-game counters the entries are folded into. */
  datatype Tally = Tally(gameId: string, games: nat, wins: nat)

  /** Number of entries for game `id`. */
  function GamesOf(es: seq<PlayerEntry>, id: string): nat
    decreases |es|
  {
    if es == [] then 0
    else GamesOf(es[..|es| - 1], id) + (if es[|es| - 1].gameId == id then 1 else 0)
  }

  /** Number of won entries for game `id`. */
  function WinsOf(es: seq<PlayerEntry>, id: string): nat
    decreases |es|
  {
    if es == [] then 0
    else WinsOf(es[..|es| - 1], id) + (if es[|es| - 1].gameId == id && IsPlayerWinner(es[|es| - 1]) then 1 else 0)
  }

  /** A player never wins a game more often than they play it. */
  lemma {:induction false} WinsAtMostGames(es: seq<PlayerEntry>, id: string)
    ensures WinsOf(es, id) <= GamesOf(es, id)
    decreases |es|
  {
    if es != [] {
      WinsAtMostGames(es[..|es| - 1], id);
    }
  }

  /** A game is counted only if some entry is for it. */
  lemma {:induction false} GamesOfPositive(es: seq<PlayerEntry>, id: string)
    ensures GamesOf(es, id) > 0 ==> exists i :: 0 <= i < |es| && es[i].gameId == id
    decreases |es|
  {
    if es != [] && es[|es| - 1].gameId != id {
      GamesOfPositive(es[..|es| - 1], id);
      if GamesOf(es, id) > 0 {
        var i :| 0 <= i < |es| - 1 && es[..|es| - 1][i].gameId == id;
        assert es[i].gameId == id;
      }
    }
  }

  predicate DistinctIds(ts: seq<Tally>) {
    forall i, j :: 0 <= i < j < |ts| ==> ts[i].gameId != ts[j].gameId
  }

  /** Position of the tally for `id`, or `|ts|` when there is none. */
  function IndexOfGame(ts: seq<Tally>, id: string): (k: nat)
    ensures k <= |ts|
    ensures k < |ts| ==> ts[k].gameId == id
    ensures forall j :: 0 <= j < k ==> ts[j].gameId != id
    decreases |ts|
  {
    if ts == [] then 0
    else if ts[0].gameId == id then 0
    else 1 + IndexOfGame(ts[1..], id)
  }

  /** One step of the fold: count the entry against its game, opening a tally for a new game. */
  function Record(ts: seq<Tally>, e: PlayerEntry): seq<Tally> {
    var k := IndexOfGame(ts, e.gameId);
    var won := if IsPlayerWinner(e) then 1 else 0;
    if k < |ts| then ts[k := Tally(e.gameId, ts[k].games + 1, ts[k].wins + won)]
    else ts + [Tally(e.gameId, 1, won)]
  }

  /** The fold of all entries, oldest first. */
  function TallyEntries(es: seq<PlayerEntry>): seq<Tally>
    decreases |es|
  {
    if es == [] then [] else Record(TallyEntries(es[..|es| - 1]), es[|es| - 1])
  }

  function SumGames(ts: seq<Tally>): nat
    decreases |ts|
  {
    if ts == [] then 0 else ts[0].games + SumGames(ts[1..])
  }

  lemma {:induction false} SumGamesUpdate(ts: seq<Tally>, k: nat, t: Tally)
    requires k < |ts|
    ensures SumGames(ts[k := t]) == SumGames(ts) - ts[k].games + t.games
    decreases |ts|
  {
    if k > 0 {
      SumGamesUpdate(ts[1..], k - 1, t);
      assert ts[k := t][1..] == ts[1..][k - 1 := t];
    }
  }

  lemma {:induction false} SumGamesAppend(ts: seq<Tally>, t: Tally)
    ensures SumGames(ts + [t]) == SumGames(ts) + t.games
    decreases |ts|
  {
    if ts != [] {
      SumGamesAppend(ts[1..], t);
      assert (ts + [t])[1..] == ts[1..] + [t];
    }
  }

  /** What the fold keeps true: one tally per game seen, holding that game's counts,
      and all tallies together count every entry once. */
  ghost predicate TallyInvariant(es: seq<PlayerEntry>, ts: seq<Tally>) {
    && DistinctIds(ts)
    && (forall k :: 0 <= k < |ts| ==>
          ts[k].games == GamesOf(es, ts[k].gameId) && ts[k].wins == WinsOf(es, ts[k].gameId) && ts[k].games > 0)
    && (forall i :: 0 <= i < |es| ==> exists k :: 0 <= k < |ts| && ts[k].gameId == es[i].gameId)
    && SumGames(ts) == |es|
  }

  lemma CountsOfSnoc(pre: seq<PlayerEntry>, e: PlayerEntry, id: string)
    ensures GamesOf(pre + [e], id) == GamesOf(pre, id) + (if e.gameId == id then 1 else 0)
    ensures WinsOf(pre + [e], id) == WinsOf(pre, id) + (if e.gameId == id && IsPlayerWinner(e) then 1 else 0)
  {
    assert (pre + [e])[..|pre|] == pre;
  }

  /** Recording one more entry keeps the fold's invariant. */
  lemma RecordKeepsInvariant(pre: seq<PlayerEntry>, e: PlayerEntry, ts0: seq<Tally>)
    requires TallyInvariant(pre, ts0)
    ensures TallyInvariant(pre + [e], Record(ts0, e))
  {
    var es := pre + [e];
    var ts := Record(ts0, e);
    var k := IndexOfGame(ts0, e.gameId);
    var won := if IsPlayerWinner(e) then 1 else 0;
    forall id { CountsOfSnoc(pre, e, id); }
    if k < |ts0| {
      var t := Tally(e.gameId, ts0[k].games + 1, ts0[k].wins + won);
      SumGamesUpdate(ts0, k, t);
    } else {
      var t := Tally(e.gameId, 1, won);
      SumGamesAppend(ts0, t);
      GamesOfPositive(pre, e.gameId);
      WinsAtMostGames(pre, e.gameId);
    }
    forall i | 0 <= i < |es|
      ensures exists j :: 0 <= j < |ts| && ts[j].gameId == es[i].gameId
    {
      if i < |pre| {
        assert es[i] == pre[i];
        var j :| 0 <= j < |ts0| && ts0[j].gameId == pre[i].gameId;
        assert ts[j].gameId == es[i].gameId;
      } else {
        assert ts[k].gameId == es[i].gameId;
      }
    }
  }

  lemma {:induction false} TallyEntriesInvariant(es: seq<PlayerEntry>)
    ensures TallyInvariant(es, TallyEntries(es))
    decreases |es|
  {
    if es != [] {
      var pre := es[..|es| - 1];
      TallyEntriesInvariant(pre);
      assert es == pre + [es[|es| - 1]];
      RecordKeepsInvariant(pre, es[|es| - 1], TallyEntries(pre));
    }
  }

  /** `wins / games`, guarded to 0 when there are no games. */
  function WinRate(wins: nat, games: nat): (wr: real)
    ensures games == 0 ==> wr == 0.0
    ensures games > 0 ==> wr * games as real == wins as real
    ensures wins <= games ==> 0.0 <= wr <= 1.0
  {
    if games == 0 then 0.0 else wins as real / games as real
  }

  function RowOf(t: Tally, gameById: map<string, Game>): GameWinRateRow {
    var game := LookupGame(gameById, t.gameId);
    GameWinRateRow(t.gameId, game, t.games, t.wins, WinRate(t.wins, t.games),
                   (if game.Some? then game.value.points else 0) * t.wins)
  }

  function RowsOf(ts: seq<Tally>, gameById: map<string, Game>): (rows: seq<GameWinRateRow>)
    ensures |rows| == |ts|
    ensures forall k :: 0 <= k < |ts| ==> rows[k] == RowOf(ts[k], gameById)
    decreases |ts|
  {
    if ts == [] then [] else [RowOf(ts[0], gameById)] + RowsOf(ts[1..], gameById)
  }

  function TotalGames(rows: seq<GameWinRateRow>): nat
    decreases |rows|
  {
    if rows == [] then 0 else rows[0].games + TotalGames(rows[1..])
  }

  lemma {:induction false} TotalGamesOfRows(ts: seq<Tally>, gameById: map<string, Game>)
    ensures TotalGames(RowsOf(ts, gameById)) == SumGames(ts)
    decreases |ts|
  {
    if ts != [] {
      TotalGamesOfRows(ts[1..], gameById);
    }
  }

  /** A row states game `row.gameId`'s statistics over the entries `es`: the number of
      entries and of wins for it, the win rate `wins / games`, the resolved game, and the
      game's point value times the wins (0 when the game does not resolve). */
  ghost predicate RowAgrees(es: seq<PlayerEntry>, gameById: map<string, Game>, row: GameWinRateRow) {
    && row.games == GamesOf(es, row.gameId)
    && row.wins == WinsOf(es, row.gameId)
    && 0 < row.games && row.wins <= row.games
    && row.wr == WinRate(row.wins, row.games)
    && row.game == LookupGame(gameById, row.gameId)
    && row.points == if row.gameId in gameById then gameById[row.gameId].points * row.wins else 0
  }

  lemma RowOfAgrees(es: seq<PlayerEntry>, gameById: map<string, Game>, t: Tally)
    requires t.games == GamesOf(es, t.gameId) && t.wins == WinsOf(es, t.gameId) && t.games > 0
    ensures RowAgrees(es, gameById, RowOf(t, gameById))
  {
    WinsAtMostGames(es, t.gameId);
  }

  /** The distinct game ids of the entries. */
  function EntryGameIds(es: seq<PlayerEntry>): set<string> {
    set i | 0 <= i < |es| :: es[i].gameId
  }

  /** The game ids the rows are about. */
  function RowGameIds(rows: seq<GameWinRateRow>): set<string> {
    set k | 0 <= k < |rows| :: rows[k].gameId
  }

  lemma RowsOfTalliesAgree(es: seq<PlayerEntry>, gameById: map<string, Game>, ts: seq<Tally>)
    requires TallyInvariant(es, ts)
    ensures forall k :: 0 <= k < |ts| ==> RowAgrees(es, gameById, RowsOf(ts, gameById)[k])
  {
    forall k | 0 <= k < |ts| ensures RowAgrees(es, gameById, RowsOf(ts, gameById)[k]) {
      RowOfAgrees(es, gameById, ts[k]);
    }
  }

  lemma RowsOfTalliesIds(es: seq<PlayerEntry>, gameById: map<string, Game>, ts: seq<Tally>)
    requires TallyInvariant(es, ts)
    ensures RowGameIds(RowsOf(ts, gameById)) == EntryGameIds(es)
  {
    var rows := RowsOf(ts, gameById);
    forall k | 0 <= k < |rows| ensures rows[k].gameId in EntryGameIds(es) {
      GamesOfPositive(es, ts[k].gameId);
    }
    forall id | id in EntryGameIds(es) ensures id in RowGameIds(rows) {
      var i :| 0 <= i < |es| && es[i].gameId == id;
      var k :| 0 <= k < |ts| && ts[k].gameId == es[i].gameId;
      assert rows[k].gameId == id;
    }
  }

  /** The rows built from a fold that keeps its invariant state the entries' statistics. */
  lemma RowsOfTallies(es: seq<PlayerEntry>, gameById: map<string, Game>, ts: seq<Tally>)
    requires TallyInvariant(es, ts)
    ensures var rows := RowsOf(ts, gameById);
      && (|rows| == 0 <==> |es| == 0)
      && (forall i, j :: 0 <= i < j < |rows| ==> rows[i].gameId != rows[j].gameId)
      && RowGameIds(rows) == EntryGameIds(es)
      && (forall k :: 0 <= k < |rows| ==> RowAgrees(es, gameById, rows[k]))
      && TotalGames(rows) == |es|
  {
    TotalGamesOfRows(ts, gameById);
    RowsOfTalliesAgree(es, gameById, ts);
    RowsOfTalliesIds(es, gameById, ts);
    if |es| > 0 {
      assert es[0].gameId in EntryGameIds(es);
    }
  }

  /** `buildGameWinRates`: exactly one row per distinct game id of the entries, each
      holding that game's statistics, and the rows' games add up to the number of entries. */
  function BuildGameWinRates(es: seq<PlayerEntry>, gameById: map<string, Game>): (rows: seq<GameWinRateRow>)
    ensures |rows| == 0 <==> |es| == 0
    ensures forall i, j :: 0 <= i < j < |rows| ==> rows[i].gameId != rows[j].gameId
    ensures RowGameIds(rows) == EntryGameIds(es)
    ensures forall k :: 0 <= k < |rows| ==> RowAgrees(es, gameById, rows[k])
    ensures TotalGames(rows) == |es|
  {
    TallyEntriesInvariant(es);
    RowsOfTallies(es, gameById, TallyEntries(es));
    RowsOf(TallyEntries(es), gameById)
  }
}

=== FILE: leaderboard_options.dfy ===
/** The choices of the leaderboard drop-down (`getLeaderboardOptions` in
    src/features/leaderboard/utils/calculations/options.ts): one option per year and game
    type that has results, each with its current leader, and a fallback when none has. */
module LeaderboardOptions {
  import opened Wrappers
  import opened Domain
  import opened Decimal
  import opened Seqs
  import opened Filtering
  import opened Selection

  /** The records the options are computed from. */
  datatype Snapshot = Snapshot(events: seq<Event>, results: seq<Result>, players: seq<Player>, gameById: map<string, Game>)

  /** An option's leader: not given (the fallback option), none (an empty board), or the board's first row. */
  datatype Leader = LeaderUnset | NoLeader | LeaderIs(player: PlayerWithData)

  datatype LeaderboardOption = LeaderboardOption(
    gameType: GameType,
    year: Option<nat>,
    labelText: string,  // `label` in the source; a reserved word here
    value: string,
    leader: Leader,
    isChampionship: Option<bool>)

  function TypeTitle(t: GameType): string {
    match t
    case Board => "Board Games"
    case Video => "Video Games"
  }

  /** The test inside `hasResults`: the result's event is found, is in `year` when a year
      is given, and the result's game resolves with type `t`. */
  predicate Matches(snap: Snapshot, year: Option<nat>, t: GameType, r: Result) {
    var ev := FindEvent(snap.events, r.eventId);
    ev.Some? && (year.None? || ev.value.year == year.value) && HasGameType(snap.gameById, r.gameId, t)
  }

  function MatchTest(snap: Snapshot, year: Option<nat>, t: GameType): Result -> bool {
    (r: Result) => Matches(snap, year, t, r)
  }

  /** `hasResults(year, gameType)`: some result matches. */
  function HasResults(snap: Snapshot, year: Option<nat>, t: GameType): (b: bool)
    ensures b <==> exists i :: 0 <= i < |snap.results| && Matches(snap, year, t, snap.results[i])
  {
    var matching := Filter(snap.results, MatchTest(snap, year, t));
    assert |matching| > 0 ==> exists i :: 0 <= i < |snap.results| && Matches(snap, year, t, snap.results[i]) by {
      if |matching| > 0 {
        FilterMember(snap.results, MatchTest(snap, year, t), matching[0]);
        assert MatchTest(snap, year, t)(matching[0]) && matching[0] in snap.results;
      }
    }
    assert (exists i :: 0 <= i < |snap.results| && Matches(snap, year, t, snap.results[i])) ==> |matching| > 0 by {
      if exists i :: 0 <= i < |snap.results| && Matches(snap, year, t, snap.results[i]) {
        var i :| 0 <= i < |snap.results| && Matches(snap, year, t, snap.results[i]);
        FilterMember(snap.results, MatchTest(snap, year, t), snap.results[i]);
        assert snap.results[i] in matching;
      }
    }
    |matching| > 0
  }

  lemma ScopedWhenHasResults(snap: Snapshot, y: nat, t: GameType)
    requires HasResults(snap, Some(y), t)
    ensures |ScopedResults(snap.results, snap.events, snap.gameById, t, Some(y))| > 0
  {
    var i :| 0 <= i < |snap.results| && Matches(snap, Some(y), t, snap.results[i]);
    var x := snap.results[i];
    assert InScope(snap.events, snap.gameById, t, Some(y), x);
    assert x in multiset(snap.results);
  }

  lemma HasResultsWhenScoped(snap: Snapshot, y: nat, t: GameType)
    requires |ScopedResults(snap.results, snap.events, snap.gameById, t, Some(y))| > 0
    ensures HasResults(snap, Some(y), t)
  {
    var x := ScopedResults(snap.results, snap.events, snap.gameById, t, Some(y))[0];
    assert InScope(snap.events, snap.gameById, t, Some(y), x);
    assert x in snap.results;
    assert Matches(snap, Some(y), t, x);
  }

  /** For a given year, an option is offered exactly when the results its board is
      aggregated from are not empty. */
  lemma HasResultsIffScoped(snap: Snapshot, y: nat, t: GameType)
    ensures HasResults(snap, Some(y), t) <==> |ScopedResults(snap.results, snap.events, snap.gameById, t, Some(y))| > 0
  {
    if HasResults(snap, Some(y), t) {
      ScopedWhenHasResults(snap, y, t);
    }
    if |ScopedResults(snap.results, snap.events, snap.gameById, t, Some(y))| > 0 {
      HasResultsWhenScoped(snap, y, t);
    }
  }

  /** `getLeader(year, gameType)`: the first row of that board, or none when it is empty. */
  function GetLeader(snap: Snapshot, c: Collaborators, year: Option<nat>, t: GameType): (l: Leader)
    ensures !l.LeaderUnset?
    ensures var board := GetLeaderboardByTypeAndYear(snap.players, snap.results, snap.events, snap.gameById, t, year, c);
      && (l.NoLeader? <==> |board| == 0)
      && (l.LeaderIs? ==> l.player == board[0] && OnLeaderboard(l.player))
  {
    var board := GetLeaderboardByTypeAndYear(snap.players, snap.results, snap.events, snap.gameById, t, year, c);
    if |board| > 0 then LeaderIs(board[0]) else NoLeader
  }

  /** The two closures the option loop calls. */
  type HasResultsFn = (Option<nat>, GameType) -> bool
  type LeaderFn = (Option<nat>, GameType) -> Leader

  function HasResultsOf(snap: Snapshot): HasResultsFn {
    (y: Option<nat>, t: GameType) => HasResults(snap, y, t)
  }

  function LeaderOf(snap: Snapshot, c: Collaborators): LeaderFn {
    (y: Option<nat>, t: GameType) => GetLeader(snap, c, y, t)
  }

  /** The option for one year and type. */
  function YearOption(getLeader: LeaderFn, currentYear: nat, y: nat, t: GameType): LeaderboardOption {
    LeaderboardOption(t, Some(y), TypeTitle(t) + " " + NatToString(y), TypeName(t) + "-" + NatToString(y),
                      getLeader(Some(y), t), Some(y < currentYear))
  }

  /** An option built for a year: the year and type have results and the option is that
      year and type's option. */
  ghost predicate IsYearOption(hasResults: HasResultsFn, getLeader: LeaderFn, currentYear: nat, o: LeaderboardOption) {
    && o.year.Some?
    && hasResults(o.year, o.gameType)
    && o == YearOption(getLeader, currentYear, o.year.value, o.gameType)
  }

  /** The options of one year: the board-game option before the video-game option, and
      an option of a type exactly when that type has results in the year. */
  function OptionsForYear(hasResults: HasResultsFn, getLeader: LeaderFn, currentYear: nat, y: nat): (opts: seq<LeaderboardOption>)
    ensures forall i :: 0 <= i < |opts| ==> opts[i].year == Some(y) && IsYearOption(hasResults, getLeader, currentYear, opts[i])
    ensures hasResults(Some(y), Board) <==> exists i :: 0 <= i < |opts| && opts[i].gameType == Board
    ensures hasResults(Some(y), Video) <==> exists i :: 0 <= i < |opts| && opts[i].gameType == Video
    ensures forall i, j :: 0 <= i < j < |opts| ==> opts[i].gameType == Board && opts[j].gameType == Video
  {
    var board := hasResults(Some(y), Board);
    var video := hasResults(Some(y), Video);
    if board && video then
      var opts := [YearOption(getLeader, currentYear, y, Board), YearOption(getLeader, currentYear, y, Video)];
      assert opts[0].gameType == Board && opts[1].gameType == Video;
      opts
    else if board then
      var opts := [YearOption(getLeader, currentYear, y, Board)];
      assert opts[0].gameType == Board;
      opts
    else if video then
      var opts := [YearOption(getLeader, currentYear, y, Video)];
      assert opts[0].gameType == Video;
      opts
    else []
  }

  /** The loop over the available years, in their order. */
  function OptionsForYears(hasResults: HasResultsFn, getLeader: LeaderFn, currentYear: nat, years: seq<nat>): (opts: seq<LeaderboardOption>)
    ensures forall i :: 0 <= i < |opts| ==> IsYearOption(hasResults, getLeader, currentYear, opts[i])
    ensures forall i :: 0 <= i < |opts| ==> opts[i].year.Some? && opts[i].year.value in years
    decreases |years|
  {
    if years == [] then []
    else
      OptionsForYear(hasResults, getLeader, currentYear, years[0])
      + OptionsForYears(hasResults, getLeader, currentYear, years[1..])
  }

  /** Some option is for year `y` and type `t`. */
  predicate Offers(opts: seq<LeaderboardOption>, y: nat, t: GameType) {
    exists i :: 0 <= i < |opts| && opts[i].gameType == t && opts[i].year == Some(y)
  }

  /** Every available year and type with results gets an option. */
  lemma {:induction false} OptionsForYearsComplete(hasResults: HasResultsFn, getLeader: LeaderFn, currentYear: nat,
                                                   years: seq<nat>, y: nat, t: GameType)
    requires y in years && hasResults(Some(y), t)
    ensures Offers(OptionsForYears(hasResults, getLeader, currentYear, years), y, t)
    decreases |years|
  {
    var here := OptionsForYear(hasResults, getLeader, currentYear, years[0]);
    var rest := OptionsForYears(hasResults, getLeader, currentYear, years[1..]);
    var opts := here + rest;
    assert OptionsForYears(hasResults, getLeader, currentYear, years) == opts;
    if y == years[0] {
      var i :| 0 <= i < |here| && here[i].gameType == t;
      assert opts[i] == here[i];
    } else {
      assert y in years[1..];
      OptionsForYearsComplete(hasResults, getLeader, currentYear, years[1..], y, t);
      var i :| 0 <= i < |rest| && rest[i].gameType == t && rest[i].year == Some(y);
      assert opts[|here| + i] == rest[i];
    }
  }

  /** Strictly descending years (newest first). */
  predicate Descending(years: seq<nat>) {
    forall i, j :: 0 <= i < j < |years| ==> years[i] > years[j]
  }

  /** `a` may precede `b`: a later year first, or the same year with the board-game option first. */
  predicate InOrder(a: LeaderboardOption, b: LeaderboardOption) {
    && a.year.Some? && b.year.Some?
    && (a.year.value > b.year.value || (a.year == b.year && a.gameType == Board && b.gameType == Video))
  }

  /** Every option may precede every later one. */
  predicate Ordered(opts: seq<LeaderboardOption>) {
    forall i, j :: 0 <= i < j < |opts| ==> InOrder(opts[i], opts[j])
  }

  /** Options come in the order of their years, and within a year the board-game option
      precedes the video-game option; so with strictly descending years no year and type
      is offered twice. */
  lemma {:induction false} OptionsForYearsOrdered(hasResults: HasResultsFn, getLeader: LeaderFn, currentYear: nat,
                                                  years: seq<nat>)
    requires Descending(years)
    ensures Ordered(OptionsForYears(hasResults, getLeader, currentYear, years))
    decreases |years|
  {
    if years != [] {
      var here := OptionsForYear(hasResults, getLeader, currentYear, years[0]);
      var rest := OptionsForYears(hasResults, getLeader, currentYear, years[1..]);
      var opts := here + rest;
      assert OptionsForYears(hasResults, getLeader, currentYear, years) == opts;
      assert Descending(years[1..]);
      OptionsForYearsOrdered(hasResults, getLeader, currentYear, years[1..]);
      assert forall x :: x in years[1..] ==> x < years[0];
      forall k | 0 <= k < |rest|
        ensures rest[k].year.Some? && rest[k].year.value < years[0]
      {
        assert rest[k].year.value in years[1..];
      }
      ConcatInOrder(here, rest, years[0]);
    }
  }

  /** The options of one year followed by options of earlier years stay in order. */
  lemma ConcatInOrder(here: seq<LeaderboardOption>, rest: seq<LeaderboardOption>, y: nat)
    requires forall i :: 0 <= i < |here| ==> here[i].year == Some(y)
    requires forall i, j :: 0 <= i < j < |here| ==> here[i].gameType == Board && here[j].gameType == Video
    requires forall k :: 0 <= k < |rest| ==> rest[k].year.Some? && rest[k].year.value < y
    requires Ordered(rest)
    ensures Ordered(here + rest)
  {
    var opts := here + rest;
    forall i, j | 0 <= i < j < |opts|
      ensures InOrder(opts[i], opts[j])
    {
      if j < |here| {
        assert opts[i] == here[i] && opts[j] == here[j];
      } else if i < |here| {
        assert opts[i] == here[i] && opts[j] == rest[j - |here|];
      } else {
        assert opts[i] == rest[i - |here|] && opts[j] == rest[j - |here|];
      }
    }
  }

  /** The option offered when no year and type has results. */
  function Fallback(currentYear: nat): LeaderboardOption {
    LeaderboardOption(Board, Some(currentYear), "Board Games " + NatToString(currentYear),
                      "board-" + NatToString(currentYear), LeaderUnset, None)
  }

  /** `getLeaderboardOptions`: the options of the available years, or the fallback alone
      when there are none. */
  function GetLeaderboardOptions(events: seq<Event>, results: seq<Result>, players: seq<Player>,
                                 gameById: map<string, Game>, availableYears: seq<nat>, currentYear: nat,
                                 c: Collaborators): (opts: seq<LeaderboardOption>)
    ensures |opts| > 0
    ensures var snap := Snapshot(events, results, players, gameById);
      forall i :: 0 <= i < |opts| ==>
        opts[i] == Fallback(currentYear) || IsYearOption(HasResultsOf(snap), LeaderOf(snap, c), currentYear, opts[i])
  {
    var snap := Snapshot(events, results, players, gameById);
    var loop := OptionsForYears(HasResultsOf(snap), LeaderOf(snap, c), currentYear, availableYears);
    if |loop| == 0 then [Fallback(currentYear)] else loop
  }

  /** What a year option shows: its year and type have results, its label and value spell
      out the type and the year, it is a championship exactly when its year is past, and
      its leader is the first row of that board. */
  lemma YearOptionShows(snap: Snapshot, c: Collaborators, currentYear: nat, o: LeaderboardOption)
    requires IsYearOption(HasResultsOf(snap), LeaderOf(snap, c), currentYear, o)
    ensures o.year.Some? && HasResults(snap, o.year, o.gameType)
    ensures o.labelText == TypeTitle(o.gameType) + " " + NatToString(o.year.value)
    ensures o.value == TypeName(o.gameType) + "-" + NatToString(o.year.value)
    ensures o.isChampionship == Some(o.year.value < currentYear)
    ensures o.leader == GetLeader(snap, c, o.year, o.gameType)
  {
  }

  /** An option's value parses back to its game type and year. */
  predicate ValueParses(o: LeaderboardOption) {
    o.year.Some? && ParseLeaderboardSelection(o.value) == ParsedSelection(TypeName(o.gameType), InYear(o.year.value))
  }

  /** Year options and the fallback alike carry values that parse back. */
  lemma ValuesParse(hasResults: HasResultsFn, getLeader: LeaderFn, currentYear: nat, opts: seq<LeaderboardOption>)
    requires forall i :: 0 <= i < |opts| ==> opts[i] == Fallback(currentYear) || IsYearOption(hasResults, getLeader, currentYear, opts[i])
    ensures forall i :: 0 <= i < |opts| ==> ValueParses(opts[i])
  {
    forall i | 0 <= i < |opts|
      ensures ValueParses(opts[i])
    {
      ParseJoinedYear(TypeName(opts[i].gameType), opts[i].year.value);
    }
  }

  /** Every option's value parses back to its game type and year. */
  lemma OptionValuesParse(events: seq<Event>, results: seq<Result>, players: seq<Player>,
                          gameById: map<string, Game>, availableYears: seq<nat>, currentYear: nat, c: Collaborators)
    ensures var opts := GetLeaderboardOptions(events, results, players, gameById, availableYears, currentYear, c);
      forall i :: 0 <= i < |opts| ==> ValueParses(opts[i])
  {
    var snap := Snapshot(events, results, players, gameById);
    ValuesParse(HasResultsOf(snap), LeaderOf(snap, c), currentYear,
                GetLeaderboardOptions(events, results, players, gameById, availableYears, currentYear, c));
  }

  /** The year loop yields nothing exactly when no available year has results of either type. */
  lemma NoOptionsIffNoResults(hasResults: HasResultsFn, getLeader: LeaderFn, currentYear: nat, years: seq<nat>)
    ensures |OptionsForYears(hasResults, getLeader, currentYear, years)| == 0
            <==> forall y, t :: y in years ==> !hasResults(Some(y), t)
  {
    if exists y, t :: y in years && hasResults(Some(y), t) {
      var y, t :| y in years && hasResults(Some(y), t);
      OptionsForYearsComplete(hasResults, getLeader, currentYear, years, y, t);
    }
  }

  /** A year option is never the fallback: only the fallback leaves the championship flag unset. */
  lemma YearOptionIsNotFallback(hasResults: HasResultsFn, getLeader: LeaderFn, currentYear: nat, o: LeaderboardOption)
    requires IsYearOption(hasResults, getLeader, currentYear, o)
    ensures o != Fallback(currentYear)
  {
    assert o.isChampionship.Some?;
  }

  /** When no available year has results of either type, the only option is the current
      year's board-game option without a leader; and only then. */
  lemma FallbackExactlyWhenNoResults(events: seq<Event>, results: seq<Result>, players: seq<Player>,
                                     gameById: map<string, Game>, availableYears: seq<nat>, currentYear: nat,
                                     c: Collaborators)
    ensures var snap := Snapshot(events, results, players, gameById);
      (forall y, t :: y in availableYears ==> !HasResults(snap, Some(y), t))
      <==> GetLeaderboardOptions(events, results, players, gameById, availableYears, currentYear, c) == [Fallback(currentYear)]
  {
    var snap := Snapshot(events, results, players, gameById);
    NoOptionsIffNoResults(HasResultsOf(snap), LeaderOf(snap, c), currentYear, availableYears);
    assert forall y, t :: HasResultsOf(snap)(Some(y), t) == HasResults(snap, Some(y), t);
    var loop := OptionsForYears(HasResultsOf(snap), LeaderOf(snap, c), currentYear, availableYears);
    if |loop| > 0 {
      YearOptionIsNotFallback(HasResultsOf(snap), LeaderOf(snap, c), currentYear, loop[0]);
    }
  }

  /** Every option is a year option. */
  ghost predicate AllYearOptions(hasResults: HasResultsFn, getLeader: LeaderFn, currentYear: nat, opts: seq<LeaderboardOption>) {
    forall i :: 0 <= i < |opts| ==> IsYearOption(hasResults, getLeader, currentYear, opts[i])
  }

  /** When some available year has results, every option is a year option, and every
      available year and type with results has one. */
  lemma OptionsCoverResults(events: seq<Event>, results: seq<Result>, players: seq<Player>,
                            gameById: map<string, Game>, availableYears: seq<nat>, currentYear: nat,
                            c: Collaborators, y: nat, t: GameType)
    requires y in availableYears && HasResults(Snapshot(events, results, players, gameById), Some(y), t)
    ensures var snap := Snapshot(events, results, players, gameById);
      var opts := GetLeaderboardOptions(events, results, players, gameById, availableYears, currentYear, c);
      AllYearOptions(HasResultsOf(snap), LeaderOf(snap, c), currentYear, opts) && Offers(opts, y, t)
  {
    var snap := Snapshot(events, results, players, gameById);
    assert HasResultsOf(snap)(Some(y), t);
    OptionsForYearsComplete(HasResultsOf(snap), LeaderOf(snap, c), currentYear, availableYears, y, t);
    assert |OptionsForYears(HasResultsOf(snap), LeaderOf(snap, c), currentYear, availableYears)| > 0;
    assert GetLeaderboardOptions(events, results, players, gameById, availableYears, currentYear, c)
        == OptionsForYears(HasResultsOf(snap), LeaderOf(snap, c), currentYear, availableYears);
  }
}

=== FILE: player_page.dfy ===
/** The statistics shown on a player's page (`aggregatePlayerStatsForPage`), composed
    from the per-game rows, the rank histogram, the win-rate series and the recent form. */
module PlayerPage {
  import opened Wrappers
  import opened Domain
  import opened GameWinRates
  import opened RankCounts
  import opened WinRateSeries
  import opened GamePicks
  import opened RecentForm

  /** The optional settings; an absent one takes its default (`opts.x ?? DEFAULT`). */
  datatype PageOptions = PageOptions(bestGameMinSamples: Option<int>, recentWindow: Option<int>, recentFormWindow: Option<int>)

  datatype LastGamePoint = LastGamePoint(x: nat, wr: real)

  datatype PlayerAggregates = PlayerAggregates(
    bestGame: Option<GameWinRateRow>,
    mostPlayed: Option<GameWinRateRow>,
    mostPoints: Option<GameWinRateRow>,
    gameWinRates: seq<GameWinRateRow>,
    rankCounts: seq<RankCount>,
    lastGamesSeries: seq<LastGamePoint>,
    recentFormSeries: seq<FormPoint>)

  /** Renumber the win-rate series from 1 for the chart, keeping each point's win rate. */
  function LastGames(series: seq<WinRatePoint>): (ps: seq<LastGamePoint>)
    ensures |ps| == |series|
    ensures forall i :: 0 <= i < |ps| ==> ps[i].x == i + 1 && ps[i].wr == series[i].wr
  {
    seq(|series|, i requires 0 <= i < |series| => LastGamePoint(i + 1, series[i].wr))
  }

  /** `aggregatePlayerStatsForPage`. The picks come from the rows (a best game has at
      least the minimum number of games, 3 by default; a most-played and a most-points
      game exist exactly when the player has entries), the rows count every entry once,
      the histogram counts every positively ranked entry, the last-games chart shows the
      last 20 entries by default, and the recent form has at most 5 points by default. */
  function AggregatePlayerStatsForPage(playerId: string, entries: seq<PlayerEntry>, gameById: map<string, Game>,
                                       events: seq<Event>, results: seq<Result>, opts: PageOptions,
                                       newestFirst: seq<Event> -> seq<Event>,
                                       percent: (nat, nat) -> real): (a: PlayerAggregates)
    ensures TotalGames(a.gameWinRates) == |entries|
    ensures forall k :: 0 <= k < |a.gameWinRates| ==> RowAgrees(entries, gameById, a.gameWinRates[k])
    ensures var minGames := opts.bestGameMinSamples.GetOr(MinGamesForBestGame);
      && (a.bestGame.None? <==> forall k :: 0 <= k < |a.gameWinRates| ==> a.gameWinRates[k].games < minGames)
      && (a.bestGame.Some? ==> a.bestGame.value in a.gameWinRates && a.bestGame.value.games >= minGames)
    ensures a.mostPlayed.None? <==> |entries| == 0
    ensures a.mostPoints.None? <==> |entries| == 0
    ensures a.mostPlayed.Some? ==> a.mostPlayed.value in a.gameWinRates
    ensures a.mostPoints.Some? ==> a.mostPoints.value in a.gameWinRates
    ensures SumCounts(a.rankCounts) == RankedEntries(entries)
    ensures forall i :: 0 <= i < |a.lastGamesSeries| ==> a.lastGamesSeries[i].x == i + 1
    ensures opts.recentWindow.None? ==>
              |a.lastGamesSeries| == if |entries| < RecentGames then |entries| else RecentGames
    ensures opts.recentFormWindow.None? ==> |a.recentFormSeries| <= RecentFormEvents
  {
    var bestGameMinSamples := opts.bestGameMinSamples.GetOr(MinGamesForBestGame);
    var recentWindow := opts.recentWindow.GetOr(RecentGames);
    var recentFormWindow := opts.recentFormWindow.GetOr(RecentFormEvents);

    var gameWinRates := BuildGameWinRates(entries, gameById);
    var rankCounts := BuildRankCounts(entries);
    var winRateSeries := BuildWinRateSeries(entries, recentWindow, percent);
    var recentFormSeries := BuildRecentFormSeries(playerId, events, results, gameById, recentFormWindow, newestFirst);

    PlayerAggregates(
      FindBestGame(gameWinRates, bestGameMinSamples),
      FindMostPlayed(gameWinRates),
      FindMostPoints(gameWinRates),
      gameWinRates,
      rankCounts,
      LastGames(winRateSeries),
      recentFormSeries)
  }
}

=== FILE: rank_counts.dfy ===
/** The rank histogram of one player (`buildRankCounts`): how often the player finished
    at each positive rank, ordered by rank. */
module RankCounts {
  import opened Wrappers
  import opened Domain

  datatype RankCount = RankCount(rank: int, count: nat)

  /** The rank an entry is counted under: its rank when that is a positive number;
      a null rank stands for -1 and, like every other non-positive rank, is skipped. */
  function CountedRank(e: PlayerEntry): (r: Option<int>)
    ensures r.Some? <==> e.rank.Some? && e.rank.value > 0
    ensures r.Some? ==> r == e.rank
  {
    if e.rank.Some? && e.rank.value > 0 then e.rank else None
  }

  /** Number of entries counted under rank `q`. */
  function RankOccurrences(es: seq<PlayerEntry>, q: int): nat
    decreases |es|
  {
    if es == [] then 0
    else RankOccurrences(es[..|es| - 1], q) + (if CountedRank(es[|es| - 1]) == Some(q) then 1 else 0)
  }

  /** Number of entries with a positive rank. */
  function RankedEntries(es: seq<PlayerEntry>): nat
    decreases |es|
  {
    if es == [] then 0
    else RankedEntries(es[..|es| - 1]) + (if CountedRank(es[|es| - 1]).Some? then 1 else 0)
  }

  predicate StrictlyAscending(rs: seq<RankCount>) {
    forall i, j :: 0 <= i < j < |rs| ==> rs[i].rank < rs[j].rank
  }

  /** The count recorded for rank `q`, 0 when the histogram has no bar for it. */
  function CountFor(rs: seq<RankCount>, q: int): nat
    decreases |rs|
  {
    if rs == [] then 0
    else if rs[0].rank == q then rs[0].count
    else CountFor(rs[1..], q)
  }

  function SumCounts(rs: seq<RankCount>): nat
    decreases |rs|
  {
    if rs == [] then 0 else rs[0].count + SumCounts(rs[1..])
  }

  /** Count one more finish at rank `q`, keeping the bars ordered by rank. */
  function Insert(rs: seq<RankCount>, q: int): seq<RankCount>
    decreases |rs|
  {
    if rs == [] then [RankCount(q, 1)]
    else if rs[0].rank == q then [RankCount(q, rs[0].count + 1)] + rs[1..]
    else if q < rs[0].rank then [RankCount(q, 1)] + rs
    else [rs[0]] + Insert(rs[1..], q)
  }

  /** In an ordered histogram the lookup of a bar's rank finds that bar. */
  lemma {:induction false} CountForBar(rs: seq<RankCount>, i: nat)
    requires StrictlyAscending(rs) && i < |rs|
    ensures CountFor(rs, rs[i].rank) == rs[i].count
    decreases |rs|
  {
    if i > 0 {
      CountForBar(rs[1..], i - 1);
    }
  }

  /** A rank with a non-zero count has a bar. */
  lemma {:induction false} CountForPositive(rs: seq<RankCount>, q: int)
    requires CountFor(rs, q) > 0
    ensures exists i :: 0 <= i < |rs| && rs[i].rank == q
    decreases |rs|
  {
    if rs[0].rank != q {
      CountForPositive(rs[1..], q);
      var i :| 0 <= i < |rs| - 1 && rs[1..][i].rank == q;
      assert rs[i + 1].rank == q;
    }
  }

  /** What the histogram keeps true while entries are counted. */
  ghost predicate Wellformed(rs: seq<RankCount>) {
    StrictlyAscending(rs) && forall i :: 0 <= i < |rs| ==> rs[i].rank > 0 && rs[i].count > 0
  }

  /** Counting a finish at a positive rank bumps exactly that rank's count. */
  lemma {:induction false} InsertFacts(rs: seq<RankCount>, q: int)
    requires Wellformed(rs) && q > 0
    ensures Wellformed(Insert(rs, q))
    ensures forall p :: CountFor(Insert(rs, q), p) == CountFor(rs, p) + (if p == q then 1 else 0)
    ensures SumCounts(Insert(rs, q)) == SumCounts(rs) + 1
    ensures |rs| > 0 ==> Insert(rs, q)[0].rank == (if q < rs[0].rank then q else rs[0].rank)
    decreases |rs|
  {
    if rs != [] && rs[0].rank != q && q > rs[0].rank {
      InsertFacts(rs[1..], q);
      var r := Insert(rs, q);
      assert r == [rs[0]] + Insert(rs[1..], q);
      assert r[1..] == Insert(rs[1..], q);
      forall p ensures CountFor(r, p) == CountFor(rs, p) + (if p == q then 1 else 0) {
        if p == rs[0].rank {
          assert CountFor(r, p) == rs[0].count;
        }
      }
    } else if rs != [] && rs[0].rank == q {
      var r := Insert(rs, q);
      assert r[1..] == rs[1..];
    } else if rs != [] {
      var r := Insert(rs, q);
      assert r[1..] == rs;
      forall p ensures CountFor(rs, p) == 0 || p > q {
        if CountFor(rs, p) > 0 {
          CountForPositive(rs, p);
        }
      }
    }
  }

  /** The fold over all entries, oldest first. */
  function Histogram(es: seq<PlayerEntry>): seq<RankCount>
    decreases |es|
  {
    if es == [] then []
    else
      var rs := Histogram(es[..|es| - 1]);
      match CountedRank(es[|es| - 1])
      case None => rs
      case Some(q) => Insert(rs, q)
  }

  lemma {:induction false} HistogramInvariant(es: seq<PlayerEntry>)
    ensures Wellformed(Histogram(es))
    ensures forall q :: CountFor(Histogram(es), q) == RankOccurrences(es, q)
    ensures SumCounts(Histogram(es)) == RankedEntries(es)
    decreases |es|
  {
    if es != [] {
      HistogramInvariant(es[..|es| - 1]);
      var last := CountedRank(es[|es| - 1]);
      if last.Some? {
        InsertFacts(Histogram(es[..|es| - 1]), last.value);
      }
    }
  }

  /** `buildRankCounts`: one bar per positive rank the player finished at, in strictly
      ascending rank order, each holding how often that rank occurs; the bars together
      count every positively ranked entry and nothing else. */
  function BuildRankCounts(es: seq<PlayerEntry>): (rs: seq<RankCount>)
    ensures StrictlyAscending(rs)
    ensures forall i :: 0 <= i < |rs| ==>
              rs[i].rank > 0 && rs[i].count >= 1 && rs[i].count == RankOccurrences(es, rs[i].rank)
    ensures forall q :: RankOccurrences(es, q) > 0 ==> exists i :: 0 <= i < |rs| && rs[i].rank == q
    ensures SumCounts(rs) == RankedEntries(es)
  {
    var rs := Histogram(es);
    HistogramInvariant(es);
    assert forall i :: 0 <= i < |rs| ==> rs[i].count == RankOccurrences(es, rs[i].rank) by {
      forall i | 0 <= i < |rs| ensures rs[i].count == RankOccurrences(es, rs[i].rank) {
        CountForBar(rs, i);
      }
    }
    assert forall q :: RankOccurrences(es, q) > 0 ==> exists i :: 0 <= i < |rs| && rs[i].rank == q by {
      forall q | RankOccurrences(es, q) > 0 ensures exists i :: 0 <= i < |rs| && rs[i].rank == q {
        CountForPositive(rs, q);
      }
    }
    rs
  }
}

=== FILE: recent_form.dfy ===
/** A player's recent form on the profile page (`buildRecentFormSeries`): the net points
    the player earned at each of the most recent events, oldest first, leaving out the
    events the player did not take part in. */
module RecentForm {
  import opened Wrappers
  import opened Domain
  import opened Seqs

  /** The player's line in a result: the first one with the player's id. */
  function LineFor(r: Result, playerId: string): Option<PlayerResult> {
    Find(r.playerResults, (pr: PlayerResult) => pr.playerId == playerId)
  }

  /** The points a line earns: the game's points for a win, minus them for a loss. */
  function NetPoints(pr: PlayerResult, g: Game): (n: int)
    ensures pr.isWinner && pr.isLoser ==> n == 0
    ensures pr.isWinner && !pr.isLoser ==> n == g.points
    ensures !pr.isWinner && pr.isLoser ==> n == -g.points
    ensures !pr.isWinner && !pr.isLoser ==> n == 0
  {
    (if pr.isWinner then g.points else 0) - (if pr.isLoser then g.points else 0)
  }

  /** A result counts toward the player's form at an event when it belongs to that
      event, its game resolves, and the player has a line in it. */
  predicate Counts(r: Result, eventId: string, playerId: string, gameById: map<string, Game>) {
    r.eventId == eventId && r.gameId in gameById && LineFor(r, playerId).Some?
  }

  /** What one result adds to the player's points at the event. */
  function Contribution(r: Result, eventId: string, playerId: string, gameById: map<string, Game>): int {
    if Counts(r, eventId, playerId, gameById) then NetPoints(LineFor(r, playerId).value, gameById[r.gameId]) else 0
  }

  /** Reference definition: the sum of all results' contributions. */
  function TotalContribution(results: seq<Result>, eventId: string, playerId: string, gameById: map<string, Game>): int
    decreases |results|
  {
    if results == [] then 0
    else Contribution(results[0], eventId, playerId, gameById) + TotalContribution(results[1..], eventId, playerId, gameById)
  }

  /** The loop over the results: a running point total and an "attended" flag. */
  function FormLoop(results: seq<Result>, eventId: string, playerId: string, gameById: map<string, Game>,
                    eventPoints: int, attended: bool): (r: Option<int>)
    ensures r.None? <==> !attended && forall i :: 0 <= i < |results| ==> !Counts(results[i], eventId, playerId, gameById)
    ensures r.Some? ==> r.value == eventPoints + TotalContribution(results, eventId, playerId, gameById)
    decreases |results|
  {
    if results == [] then
      if attended then Some(eventPoints) else None
    else
      var r := results[0];
      var rest := FormLoop(results[1..], eventId, playerId, gameById,
                           eventPoints + Contribution(r, eventId, playerId, gameById),
                           attended || Counts(r, eventId, playerId, gameById));
      assert forall i :: 1 <= i < |results| ==> results[i] == results[1..][i - 1];
      rest
  }

  /** The player's form at one event: none when no result of the event with a
      resolvable game has a line for the player, otherwise the sum of the points won
      and lost across those results. */
  function EventForm(playerId: string, event: Event, results: seq<Result>, gameById: map<string, Game>): (r: Option<int>)
    ensures r.None? <==> forall i :: 0 <= i < |results| ==> !Counts(results[i], event.id, playerId, gameById)
    ensures r.Some? ==> r.value == TotalContribution(results, event.id, playerId, gameById)
  {
    FormLoop(results, event.id, playerId, gameById, 0, false)
  }

  /** A point of the series: its 1-based position among the recent events, oldest first. */
  datatype FormPoint = FormPoint(x: nat, points: Option<int>)

  predicate IncreasingX(ps: seq<FormPoint>) {
    forall i, j :: 0 <= i < j < |ps| ==> ps[i].x < ps[j].x
  }

  lemma {:induction false} FilterKeepsIncreasingX(ps: seq<FormPoint>, p: FormPoint -> bool)
    requires IncreasingX(ps)
    ensures IncreasingX(Filter(ps, p))
    decreases |ps|
  {
    if ps != [] {
      FilterKeepsIncreasingX(ps[1..], p);
      var rest := Filter(ps[1..], p);
      forall k | 0 <= k < |rest| ensures ps[0].x < rest[k].x {
        FilterMember(ps[1..], p, rest[k]);
        var i :| 0 <= i < |ps[1..]| && ps[1..][i] == rest[k];
        assert ps[i + 1] == rest[k];
      }
    }
  }

  predicate Present(p: FormPoint) {
    p.points.Some?
  }

  /** Number the form values from 1, oldest first, given them newest first. */
  function NumberOldestFirst(formData: seq<Option<int>>): (ps: seq<FormPoint>)
    ensures |ps| == |formData|
    ensures forall i :: 0 <= i < |ps| ==> ps[i] == FormPoint(i + 1, formData[|formData| - 1 - i])
  {
    var oldestFirst := Reverse(formData);
    seq(|oldestFirst|, i requires 0 <= i < |oldestFirst| => FormPoint(i + 1, oldestFirst[i]))
  }

  /** Keeping the present points of the numbered values keeps each value at position
      `n - x` of the newest-first values, in increasing positions, and misses none. */
  lemma PresentPoints(formData: seq<Option<int>>)
    ensures var n := |formData|;
      var s := Filter(NumberOldestFirst(formData), Present);
      && |s| <= n
      && (forall k :: 0 <= k < |s| ==> s[k].points.Some? && 1 <= s[k].x <= n && s[k].points == formData[n - s[k].x])
      && IncreasingX(s)
      && (forall j :: 0 <= j < n && formData[j].Some? ==> exists k :: 0 <= k < |s| && s[k].x == n - j)
  {
    var n := |formData|;
    var numbered := NumberOldestFirst(formData);
    var s := Filter(numbered, Present);
    FilterKeepsIncreasingX(numbered, Present);
    forall k | 0 <= k < |s|
      ensures s[k].points.Some? && 1 <= s[k].x <= n && s[k].points == formData[n - s[k].x]
    {
      FilterMember(numbered, Present, s[k]);
      var i :| 0 <= i < |numbered| && numbered[i] == s[k];
    }
    forall j | 0 <= j < n && formData[j].Some?
      ensures exists k :: 0 <= k < |s| && s[k].x == n - j
    {
      var i := n - 1 - j;
      FilterMember(numbered, Present, numbered[i]);
      assert numbered[i] in s;
    }
  }

  /** The form values of the given events, in the given order. */
  function FormData(playerId: string, events: seq<Event>, results: seq<Result>, gameById: map<string, Game>): (d: seq<Option<int>>)
    ensures |d| == |events|
    ensures forall i :: 0 <= i < |events| ==> d[i] == EventForm(playerId, events[i], results, gameById)
  {
    seq(|events|, i requires 0 <= i < |events| => EventForm(playerId, events[i], results, gameById))
  }

  /** `buildRecentFormSeries`: take the first `recentWindow` events of the newest-first
      order (`slice(0, recentWindow)`), reverse them to oldest first, number them from 1
      and keep only the events where the player has a form value. The result has no
      null points, at most `recentWindow` of them, strictly increasing positions with gaps
      where the player was absent, and every attended recent event appears. */
  function BuildRecentFormSeries(playerId: string, events: seq<Event>, results: seq<Result>,
                                 gameById: map<string, Game>, recentWindow: int,
                                 newestFirst: seq<Event> -> seq<Event>): (s: seq<FormPoint>)
    ensures var recent := SliceTo(newestFirst(events), recentWindow);
      && |s| <= |recent|
      && (recentWindow >= 0 ==> |s| <= recentWindow)
      && (forall k :: 0 <= k < |s| ==> s[k].points.Some? && 1 <= s[k].x <= |recent|)
      && (forall k :: 0 <= k < |s| ==>
            s[k].points == EventForm(playerId, recent[|recent| - s[k].x], results, gameById))
      && IncreasingX(s)
      && (forall j :: 0 <= j < |recent| && EventForm(playerId, recent[j], results, gameById).Some? ==>
            exists k :: 0 <= k < |s| && s[k].x == |recent| - j)
  {
    var recent := SliceTo(newestFirst(events), recentWindow);
    var formData := FormData(playerId, recent, results, gameById);
    PresentPoints(formData);
    Filter(NumberOldestFirst(formData), Present)
  }
}

=== FILE: selection.dfy ===
/** Reading a leaderboard selection such as "board-2025" or "video-all"
    (`parseLeaderboardSelection` in src/features/leaderboard/utils/helpers.ts). */
module Selection {
  import opened Decimal

  /** The year part: "all" (no year), a number, or text `Number` reads as NaN. */
  datatype YearSelection = AllYears | InYear(year: nat) | NotNumeric

  /** The game type is the raw text of the first segment; nothing checks that it names a type. */
  datatype ParsedSelection = ParsedSelection(gameType: string, year: YearSelection)

  /** The text before the first '-' (all of it when there is none). */
  function BeforeDash(s: string): (h: string)
    ensures |h| <= |s| && h == s[..|h|]
    ensures '-' !in h
    ensures |h| < |s| ==> s[|h|] == '-'
    decreases |s|
  {
    if s == [] || s[0] == '-' then [] else [s[0]] + BeforeDash(s[1..])
  }

  /** A text without '-' followed by a '-' splits at that '-'. */
  lemma {:induction false} BeforeDashOfJoin(t: string, rest: string)
    requires '-' !in t
    ensures BeforeDash(t + "-" + rest) == t
    decreases |t|
  {
    if t != [] {
      assert (t + "-" + rest)[1..] == t[1..] + "-" + rest;
      BeforeDashOfJoin(t[1..], rest);
    }
  }

  lemma BeforeDashOfDashless(t: string)
    requires '-' !in t
    ensures BeforeDash(t) == t
  {
  }

  /** `Number(str)` on a year segment: the empty text is 0 and a digit string is its
      decimal value; any other text is taken as not a number. */
  function NumberValue(str: string): (y: YearSelection)
    ensures str == "" ==> y == InYear(0)
    ensures str != "" && AllDigits(str) ==> y == InYear(ParseDigits(str))
    ensures !AllDigits(str) ==> y == NotNumeric
  {
    if str == "" then InYear(0)
    else if AllDigits(str) then InYear(ParseDigits(str))
    else NotNumeric
  }

  /** `parseLeaderboardSelection`: `selection.split("-")` gives the type as the first
      segment and the year from the second, "all" meaning no year; a selection without
      '-' has no second segment, and `Number(undefined)` is not a number. */
  function ParseLeaderboardSelection(selection: string): (p: ParsedSelection)
    ensures '-' !in p.gameType
    ensures |p.gameType| <= |selection| && selection[..|p.gameType|] == p.gameType
    ensures |p.gameType| < |selection| ==> selection[|p.gameType|] == '-'
    ensures '-' !in selection ==> p == ParsedSelection(selection, NotNumeric)
  {
    var head := BeforeDash(selection);
    if |head| == |selection| then
      assert selection == head;
      ParsedSelection(head, NotNumeric)
    else
      var yearStr := BeforeDash(selection[|head| + 1..]);
      ParsedSelection(head, if yearStr == "all" then AllYears else NumberValue(yearStr))
  }

  /** Only the segment between the first and the second '-' decides the year: anything
      after a second '-' is ignored. */
  lemma LaterSegmentsIgnored(t: string, y: string, rest: string)
    requires '-' !in t && '-' !in y
    ensures ParseLeaderboardSelection(t + "-" + y + "-" + rest) == ParseLeaderboardSelection(t + "-" + y)
  {
    var long := t + "-" + y + "-" + rest;
    var short := t + "-" + y;
    assert long == t + "-" + (y + "-" + rest);
    BeforeDashOfJoin(t, y + "-" + rest);
    BeforeDashOfJoin(t, y);
    assert long[|t| + 1..] == y + "-" + rest;
    assert short[|t| + 1..] == y;
    BeforeDashOfJoin(y, rest);
    BeforeDashOfDashless(y);
  }

  /** The year of a two-segment selection: the type is the first segment, and the second
      is "all" (no year) or whatever `Number` makes of it. */
  lemma ParseJoined(t: string, y: string)
    requires '-' !in t && '-' !in y
    ensures ParseLeaderboardSelection(t + "-" + y)
      == ParsedSelection(t, if y == "all" then AllYears else NumberValue(y))
  {
    BeforeDashOfJoin(t, y);
    assert (t + "-" + y)[|t| + 1..] == y;
    BeforeDashOfDashless(y);
  }

  /** Reading back a type (without '-') joined to the decimal text of a year gives that
      type and year: parsing inverts the `"<type>-<year>"` values. */
  lemma ParseJoinedYear(t: string, y: nat)
    requires '-' !in t
    ensures ParseLeaderboardSelection(t + "-" + NatToString(y)) == ParsedSelection(t, InYear(y))
  {
    var digits := NatToString(y);
    ParseJoined(t, digits);
    assert digits != "all" by {
      assert IsDigit(digits[0]);
    }
    ParseNatToString(y);
  }

  /** The documented example "board-2025". */
  lemma ParseBoardExample()
    ensures ParseLeaderboardSelection("board-2025") == ParsedSelection("board", InYear(2025))
  {
    assert NatToString(2) == "2";
    assert NatToString(20) == "20";
    assert NatToString(202) == "202";
    assert NatToString(2025) == "2025";
    assert "board-2025" == "board" + "-" + NatToString(2025);
    ParseJoinedYear("board", 2025);
  }

  /** The documented example "video-all": the literal "all" selects no year. */
  lemma ParseVideoAllExample()
    ensures ParseLeaderboardSelection("video-all") == ParsedSelection("video", AllYears)
  {
    ParseJoined("video", "all");
  }
}

=== FILE: seqs.dfy ===
/** Sequence helpers shared by the model: `Array.prototype.filter`, `find`,
    `reverse` and the index clamping of `slice`. */
module Seqs {
  import opened Wrappers

  /** `s.filter(p)`: the elements satisfying `p`, in their original order. */
  function Filter<T>(s: seq<T>, p: T -> bool): (r: seq<T>)
    ensures |r| <= |s|
    ensures forall i :: 0 <= i < |r| ==> p(r[i])
    decreases |s|
  {
    if s == [] then []
    else if p(s[0]) then [s[0]] + Filter(s[1..], p)
    else Filter(s[1..], p)
  }

  /** Filtering keeps every satisfying element as often as it occurs and drops the rest. */
  lemma {:induction false} FilterMultiset<T>(s: seq<T>, p: T -> bool, x: T)
    ensures multiset(Filter(s, p))[x] == if p(x) then multiset(s)[x] else 0
    decreases |s|
  {
    if s != [] {
      FilterMultiset(s[1..], p, x);
      assert s == [s[0]] + s[1..];
    }
  }

  /** An element is kept exactly when it occurs in the input and passes. */
  lemma FilterMember<T>(s: seq<T>, p: T -> bool, x: T)
    ensures x in Filter(s, p) <==> x in s && p(x)
  {
  }

  /** `FilterMultiset` for every element at once. */
  lemma FilterCounts<T>(s: seq<T>, p: T -> bool)
    ensures forall x :: multiset(Filter(s, p))[x] == if p(x) then multiset(s)[x] else 0
  {
    forall x { FilterMultiset(s, p, x); }
  }

  /** Filtering a sequence whose every element passes changes nothing. */
  lemma {:induction false} FilterAllPass<T>(s: seq<T>, p: T -> bool)
    requires forall i :: 0 <= i < |s| ==> p(s[i])
    ensures Filter(s, p) == s
    decreases |s|
  {
    if s != [] {
      FilterAllPass(s[1..], p);
    }
  }

  /** Filtering twice by the same test is filtering once. */
  lemma {:induction false} FilterIdempotent<T>(s: seq<T>, p: T -> bool)
    ensures Filter(Filter(s, p), p) == Filter(s, p)
    decreases |s|
  {
    if s != [] {
      FilterIdempotent(s[1..], p);
    }
  }

  /** Two filters may run in either order. */
  lemma {:induction false} FilterCommutes<T>(s: seq<T>, p: T -> bool, q: T -> bool)
    ensures Filter(Filter(s, p), q) == Filter(Filter(s, q), p)
    decreases |s|
  {
    if s != [] {
      FilterCommutes(s[1..], p, q);
    }
  }

  /** `s.find(p)`: the first element satisfying `p`, if any. */
  function Find<T>(s: seq<T>, p: T -> bool): (r: Option<T>)
    ensures r.None? <==> forall i :: 0 <= i < |s| ==> !p(s[i])
    ensures r.Some? ==> exists k :: 0 <= k < |s| && s[k] == r.value && p(s[k])
                                    && forall j :: 0 <= j < k ==> !p(s[j])
    decreases |s|
  {
    if s == [] then None
    else if p(s[0]) then Some(s[0])
    else
      var r := Find(s[1..], p);
      assert r.Some? ==> exists k :: 1 <= k < |s| && s[k] == r.value && p(s[k])
                                    && forall j :: 0 <= j < k ==> !p(s[j]) by {
        if r.Some? {
          var k :| 0 <= k < |s| - 1 && s[1..][k] == r.value && p(s[1..][k])
                   && forall j :: 0 <= j < k ==> !p(s[1..][j]);
          assert s[k + 1] == r.value;
          assert forall j :: 0 <= j < k + 1 ==> !p(s[j]) by {
            forall j | 0 <= j < k + 1 ensures !p(s[j]) {
              if j > 0 { assert s[j] == s[1..][j - 1]; }
            }
          }
        }
      }
      r
  }

  /** `s.slice().reverse()`. */
  function Reverse<T>(s: seq<T>): (r: seq<T>)
    ensures |r| == |s|
    ensures forall i :: 0 <= i < |s| ==> r[i] == s[|s| - 1 - i]
    decreases |s|
  {
    if s == [] then [] else Reverse(s[1..]) + [s[0]]
  }

  /** How `Array.prototype.slice` turns a relative index into a position:
      a negative index counts back from the end, and both ends are clamped. */
  function RelativeIndex(i: int, len: nat): (k: nat)
    ensures k <= len
    ensures i < 0 ==> k == if len + i < 0 then 0 else len + i
    ensures i >= 0 ==> k == if i < len then i else len
  {
    if i < 0 then (if len + i < 0 then 0 else len + i)
    else if i < len then i
    else len
  }

  /** `s.slice(start)`. */
  function SliceFrom<T>(s: seq<T>, start: int): (r: seq<T>)
    ensures |r| <= |s| && r == s[|s| - |r|..]
    ensures start < 0 ==> |r| == if -start < |s| then -start else |s|
    ensures start >= 0 ==> |r| == if start < |s| then |s| - start else 0
  {
    s[RelativeIndex(start, |s|)..]
  }

  /** `s.slice(0, end)`. */
  function SliceTo<T>(s: seq<T>, end: int): (r: seq<T>)
    ensures |r| <= |s| && r == s[..|r|]
    ensures end >= 0 ==> |r| == if end < |s| then end else |s|
    ensures end < 0 ==> |r| == if |s| + end < 0 then 0 else |s| + end
  {
    s[..RelativeIndex(end, |s|)]
  }
}

=== FILE: win_rate_series.dfy ===
/** The cumulative win-rate series of one player (`buildWinRateSeries`): one point per
    entry, oldest first, cut to the most recent window. */
module WinRateSeries {
  import opened Domain
  import opened Seqs

  /** A point of the series; `wr` is the percentage computed from the two running counts. */
  datatype WinRatePoint = WinRatePoint(idx: nat, cumWins: nat, cumGames: nat, wr: real)

  /** Number of won entries. */
  function WinsIn(es: seq<PlayerEntry>): nat
    decreases |es|
  {
    if es == [] then 0
    else WinsIn(es[..|es| - 1]) + (if IsPlayerWinner(es[|es| - 1]) then 1 else 0)
  }

  /** The series over all entries; `percent` is the percentage helper applied to the
      running wins and games. */
  function FullSeries(es: seq<PlayerEntry>, percent: (nat, nat) -> real): (s: seq<WinRatePoint>)
    ensures |s| == |es|
    ensures forall i :: 0 <= i < |s| ==>
              && s[i].idx == i + 1
              && s[i].cumGames == i + 1
              && s[i].cumWins == WinsIn(es[..i + 1])
              && s[i].wr == percent(s[i].cumWins, s[i].cumGames)
    decreases |es|
  {
    if es == [] then []
    else
      var pre := FullSeries(es[..|es| - 1], percent);
      var n := |es|;
      assert es[..n] == es;
      assert forall i :: 0 <= i < n - 1 ==> pre[i].cumWins == WinsIn(es[..i + 1]) by {
        forall i | 0 <= i < n - 1 ensures pre[i].cumWins == WinsIn(es[..i + 1]) {
          assert es[..n - 1][..i + 1] == es[..i + 1];
        }
      }
      var cumWins := WinsIn(es);
      pre + [WinRatePoint(n, cumWins, n, percent(cumWins, n))]
  }

  /** Running wins never exceed running games, and rise by one exactly at a win. */
  lemma {:induction false} FullSeriesSteps(es: seq<PlayerEntry>, percent: (nat, nat) -> real, i: nat)
    requires i < |es|
    ensures FullSeries(es, percent)[i].cumWins <= FullSeries(es, percent)[i].cumGames
    ensures i + 1 < |es| ==>
              FullSeries(es, percent)[i + 1].cumWins
                == FullSeries(es, percent)[i].cumWins + (if IsPlayerWinner(es[i + 1]) then 1 else 0)
  {
    WinsInBound(es[..i + 1]);
    if i + 1 < |es| {
      assert es[..i + 2][..i + 1] == es[..i + 1];
    }
  }

  lemma {:induction false} WinsInBound(es: seq<PlayerEntry>)
    ensures WinsIn(es) <= |es|
    decreases |es|
  {
    if es != [] {
      WinsInBound(es[..|es| - 1]);
    }
  }

  /** Every suffix of the full series keeps `idx == cumGames`, `cumWins <= cumGames`,
      consecutive indices, and ends at the last entry. */
  lemma SuffixFacts(es: seq<PlayerEntry>, percent: (nat, nat) -> real, k: nat)
    requires k <= |es|
    ensures var s := FullSeries(es, percent)[k..];
      && (forall i :: 0 <= i < |s| ==> s[i].idx == s[i].cumGames && s[i].cumWins <= s[i].cumGames)
      && (forall i :: 0 <= i < |s| - 1 ==> s[i + 1].idx == s[i].idx + 1)
      && (|s| > 0 ==> s[|s| - 1].idx == |es|)
  {
    var full := FullSeries(es, percent);
    forall i | k <= i < |full| ensures full[i].cumWins <= full[i].cumGames {
      FullSeriesSteps(es, percent, i);
    }
  }

  /** `buildWinRateSeries`: `series.slice(-recentWindow)`. For a positive window the
      last `min(n, window)` points; for a zero window (`slice(-0)` is `slice(0)`) the
      whole series; for a negative window the series without its first `-window` points.
      Every point keeps `idx == cumGames` and consecutive points have consecutive indices. */
  function BuildWinRateSeries(es: seq<PlayerEntry>, recentWindow: int, percent: (nat, nat) -> real): (s: seq<WinRatePoint>)
    ensures var full := FullSeries(es, percent);
      && (recentWindow > 0 ==> s == full[|full| - (if recentWindow < |full| then recentWindow else |full|)..])
      && (recentWindow == 0 ==> s == full)
      && (recentWindow < 0 ==> s == full[(if -recentWindow < |full| then -recentWindow else |full|)..])
    ensures forall i :: 0 <= i < |s| ==> s[i].idx == s[i].cumGames && s[i].cumWins <= s[i].cumGames
    ensures forall i :: 0 <= i < |s| - 1 ==> s[i + 1].idx == s[i].idx + 1
    ensures |s| > 0 ==> s[|s| - 1].idx == |es|
  {
    var full := FullSeries(es, percent);
    var s := SliceFrom(full, -recentWindow);
    SuffixFacts(es, percent, |full| - |s|);
    s
  }
}

=== FILE: wrappers.dfy ===
/** Optional values: the model's rendering of TypeScript's `T | null` and `T | undefined`. */
module Wrappers {

  datatype Option<+T> = None | Some(value: T) {

    /** The value, or `default` when absent: TypeScript's `x ?? default`. */
    function GetOr(default: T): T {
      match this
      case Some(v) => v
      case None => default
    }
  }
}
